=== FILE: README.md ===
# Shell name, path and entry-list logic of a FAT-style virtual disk

The repository emulates a FAT-style file system inside one backing file and
drives it from an interactive shell (`md`, `rd`, `cd`, `echo`, `rename`, …).
The storage engine itself (cluster table, directory serialisation, file
content) lives in `Mini_FAT`, `Directory`, `Directory_Entry` and `File_Entry`,
which are not part of this model. What is modelled is the logic the shell
runs on top of it, in `shell/CommandProcessor.cpp`:

- the 8.3 file-name validator (`isValidFileName`);
- the split of a path at its last `/` or `\` into a parent path and a leaf;
- the component split of `MoveToDir` and `cd` (`getline` on `\`, empty
  pieces dropped), with `MoveToDir`'s `/`→`\` mapping and drive component;
- `echo`'s normalisation of its argument: trim spaces, validate, add `.txt`;
- the duplicate-name guards and list edits of `echo`, `md`, `rename`, `rd`;
- `cd` resolution (`.`, `..`, named components, absolute `C:\…` paths) and
  `MoveToDir`'s descent, over a directory tree held as a map from node
  handle to node record (name, parent handle, entry list).

Files, one module each:

| file | module | content |
|---|---|---|
| outcome.dfy | `Outcome` | `Option`, `Result`, the error kinds the shell reports |
| ascii.dfy | `Ascii` | ASCII case folding, `find_last_of`, substring test |
| filename.dfy | `FileName` | the 8.3 validator and its declarative statement |
| paths.dfy | `Paths` | last-separator split, component split and its algebra |
| echo.dfy | `EchoName` | trimming, default extension, `echo`'s target |
| entries.dfy | `Entries` | the entry record and the duplicate/rename/remove guards |
| tree.dfy | `Tree` | the tree, its invariant, `cd` and `MoveToDir` |
| commands.dfy | `Commands` | `echo`, `md`, `rd`, `rename` over the tree |

Collaborators whose code is not part of this model become parameters:
`Directory::searchDirectory` is a function `search` that returns -1 or an
index into the entries (`Tree.SearchOk`; `Entries.FirstMatch`, a
case-insensitive first match, is one such function); `Directory::getDrive`
is the `drive` string of `MoveToDir`; `Mini_FAT::getAvailableCluster` is the
`cluster` integer of `md` (-1 when the disk is full);
`Directory_Entry::cleanTheName` is the `clean` function of `md`; the new
directory node's handle is `newNode`; the user's y/n answer to `rd` is the
boolean `confirmed`. `Directory::isEmpty` is read as "the node has no
entries", and a newly made directory starts with no entries; the comments
next to `readDirectory` in `handleMd` and to the listing in `handleDir`
allow that the storage layer stores `.` and `..` entries, which this model
does not.

The model follows the code in these places, where the commands treat names
less uniformly than one might expect:

- `md` compares the new name only with existing directories, so a directory
  may take the name of a file (ignoring case) — see
  `Entries.AddDirectoryCanClashWithFile`; `echo`, by contrast, refuses a
  new file whose name equals any sibling's ignoring case.
- `rename` compares the new name exactly (case-sensitively) and does not run
  the 8.3 validator — see `Entries.RenameCanClashIgnoringCase`.
- `isValidFileName` admits a dot-free name of up to 11 characters; `echo`
  then appends `.txt`, giving a stored name whose base exceeds 8 characters
  — see `EchoName.ExtendedNameCanBreak83`.
- `cd` splits only on `\`; only `MoveToDir` maps `/` to `\` first.

## Model

| member | source | states |
|---|---|---|
| `Ascii.LastIndexIn` | shell/CommandProcessor.cpp:534-545 | `find_last_of`: none exactly when no character of the set occurs; otherwise the position holds a set character and none follows it |
| `Ascii.Lower` | shell/CommandProcessor.cpp:507-513 | `toLower`: same length, each character folded by `tolower`: an upper-case letter becomes the lower-case letter 32 code points above it, every other character is kept (`LowerIdempotent`: folding twice is folding once) |
| `Ascii.LowerIdempotent` | shell/CommandProcessor.cpp:507-513 | lower-casing an already lower-cased name changes nothing |
| `Ascii.Upper` | shell/CommandProcessor.cpp:516-522 | `toUpper`: same length, each character folded by `toupper`: a lower-case letter becomes the upper-case letter 32 code points below it, every other character is kept |
| `Ascii.UpperIdempotent` | shell/CommandProcessor.cpp:995-996 | upper-casing twice is upper-casing once, so `MoveToDir` comparing `toUpper` of the already upper-cased drive name is comparing the drive ignoring case |
| `Ascii.ContainsIffOccurs` | shell/CommandProcessor.cpp:1590 | the substring test behind `find(":\\") != npos` holds exactly when the text occurs at some position |
| `FileName.IsValidFileName` | shell/CommandProcessor.cpp:1333-1368 | rejects empty names, names over 11 characters, names with any of the reserved characters (slash, backslash, `*`, `?`, `"`, `<`, `>`, pipe), names starting with `.`; accepts exactly the names meeting the declarative 8.3 rule `Is83Name` |
| `FileName.DotFreeName` | shell/CommandProcessor.cpp:1360-1367 | a dot-free name is accepted iff it has 1 to 11 characters, none reserved |
| `FileName.DottedName` | shell/CommandProcessor.cpp:1352-1359 | a dotted name passing the first rules is accepted iff 1–8 characters precede the last dot and 1–3 follow it |
| `Paths.SplitAtLastSeparator` | shell/CommandProcessor.cpp:534-545 | with a separator, parent + separator + leaf is the input; without one the parent is empty and the leaf is the input; the leaf never holds a separator |
| `Paths.JoinPieces` | shell/CommandProcessor.cpp:975-983 | the pieces between separators (empty ones included, and a final empty piece kept where `getline` would omit it) joined with the separator give the path back |
| `Paths.PiecesOfJoin` | shell/CommandProcessor.cpp:975-983 | separator-free pieces joined and split again give the same pieces |
| `Paths.TokensOfJoin` | shell/CommandProcessor.cpp:837-841 | the component list of `a\b` is that of `a` followed by that of `b`, so runs of separators and separators at the ends add no components |
| `Paths.TokensOfWord` | shell/CommandProcessor.cpp:837-841 | a non-empty separator-free word is its own single component |
| `Paths.TokensOfSeparators` | shell/CommandProcessor.cpp:975-983 | a string of separators alone has no components |
| `Paths.TokensOfDoubleSeparator` | shell/CommandProcessor.cpp:837-841 | a doubled separator yields the same components as a single one |
| `Paths.DirComponents` | shell/CommandProcessor.cpp:970-983 | `MoveToDir`'s components are the `\`-tokens of the path after `/` is mapped to `\`; they are non-empty and contain neither `/` nor `\` |
| `Paths.DirComponentsOfJoin` | shell/CommandProcessor.cpp:970-983 | names free of `/` and `\` joined by single backslashes come back as exactly those names, the empty ones dropped |
| `Paths.Tokens` | shell/CommandProcessor.cpp:837-841 | the component list keeps no empty piece and no piece contains the separator; with `TokensOfJoin` and `TokensOfWord` this determines it |
| `Paths.NormalizeSlashes` | shell/CommandProcessor.cpp:973 | no `/` survives the replacement, every `/` becomes `\`, every other character is kept in place |
| `EchoName.TrimSpaces` | shell/CommandProcessor.cpp:1147-1163 | the result is empty iff the input is all spaces, otherwise starts and ends with a non-space, and is the slice of the input outside which there are only spaces |
| `EchoName.TrimIdempotent` | shell/CommandProcessor.cpp:1147-1163 | trimming twice is trimming once |
| `EchoName.WithDefaultExtension` | shell/CommandProcessor.cpp:1191-1196 | `.txt` is appended exactly when the last dot is absent, first or last; otherwise the name is unchanged |
| `EchoName.DefaultExtensionIdempotent` | shell/CommandProcessor.cpp:1191-1196 | for a non-empty name the result always has a usable extension, so a second application changes nothing |
| `EchoName.ValidNameGetsExtensionIffDotFree` | shell/CommandProcessor.cpp:1186-1196 | after validation, `.txt` is appended exactly when the name has no dot |
| `EchoName.ExtendedNameCanBreak83` | shell/CommandProcessor.cpp:1186-1196 | `ABCDEFGHI` passes validation but the stored `ABCDEFGHI.txt` would not |
| `EchoName.EchoTarget` | shell/CommandProcessor.cpp:1142-1196 | syntax error iff the argument is all spaces; name error iff the trimmed argument is non-empty and the leaf after its last separator fails validation; otherwise the parent path is the part before that separator and the name is the leaf with the default extension, which has a usable extension, no separator and no trailing space |
| `EchoName.TargetOf` | shell/CommandProcessor.cpp:1172-1196 | on the trimmed argument: refused with a name error iff the leaf fails validation; otherwise the target is the split parent path and the extended leaf |
| `EchoName.EchoTargetIgnoresPadding` | shell/CommandProcessor.cpp:1147-1163 | spaces around the argument do not change where the file is created |
| `Entries.FindClash` | shell/CommandProcessor.cpp:1212-1228 | the duplicate-scan loop reports a collision iff some entry collides under the command's rule |
| `Entries.AddFile` | shell/CommandProcessor.cpp:1212-1235 | refused iff some entry's name equals the new name ignoring case; otherwise exactly one empty file with that name is appended and all prior entries are untouched |
| `Entries.AddFileKeepsUnique` | shell/CommandProcessor.cpp:1212-1235 | `echo`'s append keeps sibling names unique ignoring case |
| `Entries.AddFileTwiceFails` | shell/CommandProcessor.cpp:1212-1228 | creating the same name again, in any case, is refused |
| `Entries.AddDirectory` | shell/CommandProcessor.cpp:565-616 | refused iff an existing directory has the name ignoring case; otherwise one linked directory entry is appended after the untouched prior entries |
| `Entries.AddDirectoryCanClashWithFile` | shell/CommandProcessor.cpp:565-584 | a directory may be made with the name of an existing file |
| `Entries.RenameEntry` | shell/CommandProcessor.cpp:1610-1637 | not found for -1, refused for a directory, refused iff some entry has exactly the new name; succeeds exactly when none of these holds, and then only the chosen entry's name changes |
| `Entries.RenameToSameNameFails` | shell/CommandProcessor.cpp:1626-1632 | renaming a file to its own name is refused |
| `Entries.RenameKeepsUniqueExact` | shell/CommandProcessor.cpp:1626-1637 | a rename keeps names exactly unique |
| `Entries.RenameRoundTrip` | shell/CommandProcessor.cpp:1626-1637 | renaming back restores the entry list |
| `Entries.RenameCanClashIgnoringCase` | shell/CommandProcessor.cpp:1626-1632 | a rename can produce two names equal ignoring case |
| `Entries.RemoveAt` | shell/CommandProcessor.cpp:696 | the chosen entry is gone and the others keep their order |
| `Entries.RemoveAtKeepsUnique` | shell/CommandProcessor.cpp:694 | erasing an entry keeps the remaining names unique ignoring case |
| `Tree.CdStep` | shell/CommandProcessor.cpp:847-890 | `.` stays; `..` fails with "already at root" exactly at the root and below the root always moves to the node's parent; a name the search does not find fails with "not found", an entry that is not a directory fails with "not a directory", and a directory entry is entered |
| `Tree.Walk` | shell/CommandProcessor.cpp:844-891 | every directory reached is a loaded node |
| `Tree.WalkAppend` | shell/CommandProcessor.cpp:844-891 | walking `a` then `b` is walking `a + b`, stopping at the first error |
| `Tree.WalkDots` | shell/CommandProcessor.cpp:847-851 | `.` components leave the directory unchanged |
| `Tree.ChildThenParent` | shell/CommandProcessor.cpp:852-890 | entering a subdirectory and then `..` returns to the start |
| `Tree.Cd` | shell/CommandProcessor.cpp:710-897 | `.`/`..`/empty handled as their components; relative paths walk their `\` components from the current directory; absolute paths walk up to the root, fail on a foreign drive and otherwise walk from the root; success lands on a loaded node |
| `Tree.DriveOf` | shell/CommandProcessor.cpp:764 | `substr(0, 2)`: the first two characters of a name that has them, the whole name otherwise |
| `Tree.RootOf` | shell/CommandProcessor.cpp:756-759 | the walk up the parent links stops only at a loaded node without a parent |
| `Tree.RootOfIsRoot` | shell/CommandProcessor.cpp:997-999 | in a well-formed tree the walk up from any node ends at the root, within as many steps as there are nodes |
| `Tree.SpecialPathsAreComponents` | shell/CommandProcessor.cpp:712-738 | the early returns for the empty path, `.` and `..` match the general component walk |
| `Tree.CdMissingFirstComponent` | shell/CommandProcessor.cpp:866-872 | a relative path whose first component is not found fails with "not found" whatever follows, and the current directory stays where it was |
| `Tree.CdUpFromRoot` | shell/CommandProcessor.cpp:726-737 | `cd ..` at the root fails and stays at the root |
| `Tree.AbsoluteCdIgnoresStart` | shell/CommandProcessor.cpp:740-831 | an absolute path resolves the same from every directory |
| `Tree.CdIgnoresRepeatedSeparators` | shell/CommandProcessor.cpp:833-841 | `a\\b` means the same as `a\b` |
| `Tree.Descend` | shell/CommandProcessor.cpp:1003-1025 | no components stay put; otherwise the first component, whatever it is (`.` and `..` included), is looked up by the search: not found fails with "not found", a file entry with "not a directory", and a directory entry is entered and the rest descended from there; every directory reached is a loaded node |
| `Tree.MoveToDirDotDotIsAName` | shell/CommandProcessor.cpp:1003-1025 | `MoveToDir` on `..` fails with "not found" when no entry matches `..`, while `cd ..` below the root (lines 847-856) reaches the parent |
| `Tree.DescendAgreesWithWalk` | shell/CommandProcessor.cpp:1003-1025 | without `.`/`..` components `MoveToDir`'s descent and `cd`'s walk agree |
| `Tree.MoveToDir` | shell/CommandProcessor.cpp:968-1028 | an empty component list, and only that, gives the empty-path error; when the first component is the drive ignoring case the rest is descended from the root, otherwise all components are descended from the current directory |
| `Tree.MoveToDirOfJoin` | shell/CommandProcessor.cpp:968-1028 | a relative path of backslash-joined names (no drive, `.` or `..`) reaches the directory, or the error, that `cd`'s walk over the same names reaches |
| `Tree.ResolveParentOnlySeparators` | shell/CommandProcessor.cpp:547-556 | only the empty parent path means the current directory; a non-empty parent path of separators alone (`echo \\F.TXT`) is refused as an empty path by `MoveToDir` (lines 970-987) |
| `Tree.MoveToDirSlashes` | shell/CommandProcessor.cpp:972-973 | `/` and `\` are interchangeable |
| `Commands.Echo` | shell/CommandProcessor.cpp:1142-1238 | a target error or an unresolved parent is returned as is; otherwise the result is creating the target file in the resolved parent; on success the tree stays well formed and exactly one empty file is appended to one directory |
| `Commands.CreateFileIn` | shell/CommandProcessor.cpp:1212-1235 | refused, with "already exists", iff some entry of the directory has the name ignoring case; otherwise the tree stays well formed and that directory alone gains one empty file at the end |
| `Commands.EchoRefusesClash` | shell/CommandProcessor.cpp:1212-1228 | once target and parent are known, `echo` answers "already exists" exactly when a name there clashes ignoring case |
| `Commands.CreateFileKeepsSiblingsUnique` | shell/CommandProcessor.cpp:1212-1235 | creating a file keeps every directory's names unique ignoring case |
| `Commands.EchoKeepsSiblingsUnique` | shell/CommandProcessor.cpp:1212-1235 | `echo` keeps every directory's names unique ignoring case |
| `Commands.EchoLeadingBackslashUsesCurrent` | shell/CommandProcessor.cpp:1172-1207 | `echo \NAME` has an empty parent path, so it creates the file in the current directory |
| `Commands.MakeDirectory` | shell/CommandProcessor.cpp:528-622 | an unresolved parent is returned as is; otherwise the result is making the leaf after the last separator in the resolved parent; on success the tree stays well formed and gains exactly the new empty, named node under a loaded parent, with every other directory unchanged; a full disk always refuses |
| `Commands.MakeDirectoryIn` | shell/CommandProcessor.cpp:564-616 | succeeds iff no directory has the leaf ignoring case, a cluster is offered and the cleaned name is non-empty, failing with "already exists", "no space" and "invalid name" in that order otherwise; on success the new node is empty, carries the cleaned name and the parent, the parent gains exactly the entry for it, and no other directory changes |
| `Commands.LinkNewDirectory` | shell/CommandProcessor.cpp:604-616 | the parent gains exactly one entry pointing at the new node, the new node points back, and the tree stays well formed |
| `Commands.RemoveDirectory` | shell/CommandProcessor.cpp:634-697 | declined means skipped; confirmed, an unresolved parent is returned as is and otherwise the result is the removal of the entry the search finds for the leaf; on success the tree stays well formed and exactly one entry naming an empty directory is gone |
| `Commands.RemoveEntryIn` | shell/CommandProcessor.cpp:670-697 | "not found" for -1, "not a directory" for a file, "not empty" for a directory with entries, and success exactly for a found empty directory, whose entry alone is erased while the tree stays well formed |
| `Commands.RemoveDirectories` | shell/CommandProcessor.cpp:625-700 | no arguments is a syntax error; otherwise the result is removing each argument in turn; the tree stays well formed; declining every prompt changes nothing |
| `Commands.RemoveEach` | shell/CommandProcessor.cpp:634-700 | each argument in turn: the tree stays well formed with the same nodes, and declining every prompt changes nothing |
| `Commands.RemoveEachSingle` | shell/CommandProcessor.cpp:634-700 | for one argument: a confirmed, successful removal is kept, a declined or failed one leaves the tree as it was |
| `Commands.RemoveEachAppend` | shell/CommandProcessor.cpp:634-700 | arguments are handled in order: removing `p1 + p2` is removing `p1`, then `p2` from the tree that left |
| `Commands.RemoveDirectoryKeepsSiblingsUnique` | shell/CommandProcessor.cpp:694-697 | `rd` keeps every directory's names unique ignoring case |
| `Commands.RemoveEachKeepsSiblingsUnique` | shell/CommandProcessor.cpp:625-700 | `rd` over any number of arguments keeps every directory's names unique ignoring case |
| `Commands.RenameTarget` | shell/CommandProcessor.cpp:1586-1607 | a name without `:\` and without a leading `\` is looked up in the current directory; a full path has a last backslash, the part before it goes to `MoveToDir` (its failure reported as "not found") and the part after it, which holds no backslash, is the name |
| `Commands.Rename` | shell/CommandProcessor.cpp:1567-1641 | two arguments are required; a new name with `\` or `:` is refused; otherwise an unresolved target is returned as is and the result is renaming the entry the search finds in the target directory; on success the tree stays well formed and one file entry of one directory carries the new name, which no entry there had before |
| `Commands.RenameIn` | shell/CommandProcessor.cpp:1610-1637 | "not found" for -1, "is a directory" for a directory, "already exists" iff some entry has exactly the new name, success exactly otherwise, and then only that entry's name changes while the tree stays well formed |

## Left out

- The storage engine: `Mini_FAT` (cluster allocation, `setClusterPointer`, free-cluster counts), `readDirectory`/`writeDirectory`, `File_Entry` content and `deleteFile`; their sources are not part of this model. No persistence is modelled, so the cluster `md` allocates before `cleanTheName` can still refuse the name (and which is then never released) is not visible here.
- `Directory::searchDirectory`, `getDrive`, `cleanTheName`, `isEmpty`: not part of this model; they are parameters or read as described above.
- Console I/O: messages, the `cin` prompts (the `rd` answer is a boolean), `handleDir` formatting, help text, history, `cls`, `quit` and the `processCommand` dispatch.
- `handleWrite`, `handleType`, `handleDel`, `handleCopy`, `handleDir`: their file-content handling and listing go through `File_Entry` and `Directory`, which are not part of this model. `handleDel` cuts a full path at its last `\` only (not `/`), and `handleDir` passes its path to `MoveToDir` without splitting it.
- `MoveToFile`: splits at the last `\` only and reads file content through `File_Entry`; not modelled.
- `handleImport`/`handleExport`: host-file-system glue.
- Raw `new`/`delete` of directory nodes: nodes live in a map; `rd` unlinks the entry but keeps the node in the map, so a current directory that `rd` removed stays a valid handle here, where the source leaves a dangling pointer.
- The parent walk of an absolute `cd` and of `MoveToDir`'s drive component is `Tree.RootOf` with as many steps as there are nodes; the tree invariant includes that this walk ends (no parent cycle, `Tree.ParentCycleIsNotWellFormed`), so it ends at the root.
- Directory entries without a loaded subdirectory: the tree invariant requires every directory entry to lead to a loaded node, so `MoveToDir`'s "not accessible" branch never fires here, and `cd`'s case of entering such an entry (which sets the current directory to a null pointer) is not modelled.
- `Directory_Entry` is not part of this model. The model assumes that its constructor, `getName` and `assignDir_Name` keep a name verbatim (the stored name of `EchoName.ExtendedNameCanBreak83` depends on that), and that `getIsFile()` (used by `md`) and `dir_attr == 0x10` (used by `cd`, `rd`, `rename`, `MoveToDir`) describe the same flag, `isDir`.
- Byte strings: `std::string` lengths count bytes, so the length limits of `isValidFileName` differ from the model's character counts on multi-byte input; names are sequences of characters here.
- `toupper`/`tolower`: ASCII only, no locale.
- `Commands.Echo`: when the parent path does not resolve, the model returns `MoveToDir`'s error rather than the shell's extra "does not exist" message.

=== FILE: ascii.dfy ===
/** ASCII character classes and case folding, and the `find_last_of`
    search the shell uses to split names and paths. */
module Ascii {
  import opened Outcome

  predicate IsUpper(c: char) { 'A' <= c <= 'Z' }
  predicate IsLower(c: char) { 'a' <= c <= 'z' }

  /** `isalpha` in the "C" locale. */
  predicate IsAlpha(c: char) { IsUpper(c) || IsLower(c) }

  /** `tolower` in the "C" locale: only A-Z are changed. */
  function ToLower(c: char): (r: char)
    ensures !IsUpper(r)
    ensures !IsUpper(c) ==> r == c
    ensures IsUpper(c) ==> IsLower(r) && r as int == c as int + 32
  {
    if IsUpper(c) then (c as int + 32) as char else c
  }

  /** `toupper` in the "C" locale: only a-z are changed. */
  function ToUpper(c: char): (r: char)
    ensures !IsLower(r)
    ensures !IsLower(c) ==> r == c
    ensures IsLower(c) ==> IsUpper(r) && r as int == c as int - 32
  {
    if IsLower(c) then (c as int - 32) as char else c
  }

  /** The two folds undo each other on the letters they change. */
  lemma CaseRoundTrip(c: char)
    ensures IsUpper(c) ==> ToUpper(ToLower(c)) == c
    ensures IsLower(c) ==> ToLower(ToUpper(c)) == c
  {
  }

  function Lower(s: string): (r: string)
    ensures |r| == |s|
    ensures forall i :: 0 <= i < |s| ==> r[i] == ToLower(s[i])
  {
    seq(|s|, i requires 0 <= i < |s| => ToLower(s[i]))
  }

  function Upper(s: string): (r: string)
    ensures |r| == |s|
    ensures forall i :: 0 <= i < |s| ==> r[i] == ToUpper(s[i])
  {
    seq(|s|, i requires 0 <= i < |s| => ToUpper(s[i]))
  }

  /** Folding to one case twice is folding once, so comparing `toUpper` of
      a name that is already upper-cased changes nothing. */
  lemma UpperIdempotent(s: string)
    ensures Upper(Upper(s)) == Upper(s)
  {
    forall i | 0 <= i < |s|
      ensures Upper(Upper(s))[i] == Upper(s)[i]
    {
      assert !IsLower(Upper(s)[i]);
    }
  }

  lemma LowerIdempotent(s: string)
    ensures Lower(Lower(s)) == Lower(s)
  {
    forall i | 0 <= i < |s|
      ensures Lower(Lower(s))[i] == Lower(s)[i]
    {
      assert !IsUpper(Lower(s)[i]);
    }
  }

  /** The shell's case-insensitive name comparison: both sides lower-cased, then compared. */
  predicate SameIgnoringCase(a: string, b: string) {
    Lower(a) == Lower(b)
  }

  /** `find_last_of(cs)`: the position of the last character of `s` that is in `cs`. */
  function LastIndexIn(s: string, cs: set<char>): (r: Option<nat>)
    ensures r.None? <==> forall i :: 0 <= i < |s| ==> s[i] !in cs
    ensures r.Some? ==> r.value < |s| && s[r.value] in cs
    ensures r.Some? ==> forall j :: r.value < j < |s| ==> s[j] !in cs
  {
    if |s| == 0 then None
    else if s[|s| - 1] in cs then Some(|s| - 1)
    else LastIndexIn(s[..|s| - 1], cs)
  }

  /** Does `t` occur in `s` as a contiguous substring (`s.find(t) != npos`)? */
  predicate Contains(s: string, t: string)
    decreases |s|
  {
    |t| <= |s| && (s[..|t|] == t || (0 < |s| && Contains(s[1..], t)))
  }

  /** `t` occurs in `s` starting at position `i`. */
  predicate OccursAt(s: string, t: string, i: nat) {
    i + |t| <= |s| && s[i..i + |t|] == t
  }

  /** `Contains` is the substring test: `t` occurs in `s` at some position. */
  lemma {:induction false} ContainsIffOccurs(s: string, t: string)
    ensures Contains(s, t) <==> exists i: nat :: OccursAt(s, t, i)
    decreases |s|
  {
    if |t| <= |s| && s[..|t|] == t {
      assert OccursAt(s, t, 0);
    } else if |t| <= |s| && 0 < |s| {
      ContainsIffOccurs(s[1..], t);
      if Contains(s[1..], t) {
        var j: nat :| OccursAt(s[1..], t, j);
        assert s[j + 1..j + 1 + |t|] == s[1..][j..j + |t|];
        assert OccursAt(s, t, j + 1);
      }
      if exists i: nat :: OccursAt(s, t, i) {
        var i: nat :| OccursAt(s, t, i);
        assert i != 0;
        assert s[1..][i - 1..i - 1 + |t|] == s[i..i + |t|];
        assert OccursAt(s[1..], t, i - 1);
      }
    }
  }

  /** A substring's characters occur in the string. */
  lemma {:induction false} ContainsChar(s: string, t: string, c: char)
    requires Contains(s, t) && c in t
    ensures c in s
    decreases |s|
  {
    if s[..|t|] == t {
      assert c in s[..|t|];
    } else {
      ContainsChar(s[1..], t, c);
    }
  }
}

=== FILE: commands.dfy ===
/** The shell commands that change a directory's entry list, modelled over
    the tree: `echo` (create a file), `md`, `rd` and `rename`. Persisting the
    changed directory (`writeDirectory`) and the cluster table are outside
    this model; a command's result is the tree it leaves behind. */
module Commands {
  import opened Outcome
  import opened Ascii
  import opened FileName
  import opened Paths
  import opened EchoName
  import opened Entries
  import opened Tree

  /** The tree with directory `id`'s entries replaced. */
  function SetEntries(fs: FileSystem, id: NodeId, es: seq<Entry>): (r: FileSystem)
    requires id in fs.nodes
    ensures r.root == fs.root && r.nodes.Keys == fs.nodes.Keys
    ensures r.nodes[id] == fs.nodes[id].(entries := es)
    ensures forall other :: other in fs.nodes && other != id ==> r.nodes[other] == fs.nodes[other]
  {
    fs.(nodes := fs.nodes[id := fs.nodes[id].(entries := es)])
  }

  /** Replacing one directory's entries keeps the tree well formed as long
      as every directory entry of the new list links back to it. */
  lemma SetEntriesKeepsWellFormed(fs: FileSystem, id: NodeId, es: seq<Entry>)
    requires WellFormed(fs) && id in fs.nodes
    requires forall i :: 0 <= i < |es| && es[i].isDir ==> LinksBack(fs, id, es[i])
    ensures WellFormed(SetEntries(fs, id, es))
  {
    var r := SetEntries(fs, id, es);
    SameParentsReachRoot(fs, r);
    forall n, e | n in fs.nodes && LinksBack(fs, n, e)
      ensures LinksBack(r, n, e)
    {
      var c := e.child.value;
      assert r.nodes[c].parent == fs.nodes[c].parent;
    }
    forall n, i | n in r.nodes && 0 <= i < |r.nodes[n].entries| && r.nodes[n].entries[i].isDir
      ensures LinksBack(r, n, r.nodes[n].entries[i])
    {
      if n == id {
        assert LinksBack(fs, id, es[i]);
      } else {
        assert LinksBack(fs, n, fs.nodes[n].entries[i]);
      }
    }
  }

  /** Every directory's entries are unique ignoring case. */
  ghost predicate SiblingsUnique(fs: FileSystem) {
    forall id :: id in fs.nodes ==> UniqueIgnoringCase(fs.nodes[id].entries)
  }

  /** Replacing one directory's entries by a list unique ignoring case keeps
      every directory's names unique. */
  lemma SetEntriesKeepsSiblingsUnique(fs: FileSystem, id: NodeId, es: seq<Entry>)
    requires SiblingsUnique(fs) && id in fs.nodes && UniqueIgnoringCase(es)
    ensures SiblingsUnique(SetEntries(fs, id, es))
  {
  }

  // -------------------------------------------------------------- echo

  /** `fs'` is `fs` with one new empty file called `name` at the end of one
      directory's entries, and nothing else changed. */
  ghost predicate FileAppended(fs: FileSystem, fs': FileSystem, name: string) {
    exists p :: p in fs.nodes && fs' == SetEntries(fs, p, fs.nodes[p].entries + [NewFile(name)])
  }

  /** `handleEcho`: normalise the argument, resolve the parent, refuse a name
      any entry already has ignoring case, append an empty file. */
  function Echo(fs: FileSystem, search: Searcher, cur: NodeId, drive: string, path: string): (r: Result<FileSystem>)
    requires WellFormed(fs) && SearchOk(search) && cur in fs.nodes
    ensures EchoTarget(path).Err? ==> r == Err(EchoTarget(path).error)
    ensures EchoTarget(path).Ok? ==>
              var t := EchoTarget(path).value;
              var parent := ResolveParent(fs, search, cur, drive, t.parentPath);
              && (parent.Err? ==> r == Err(parent.error))
              && (parent.Ok? ==> r == CreateFileIn(fs, parent.value, t.fileName))
    ensures r.Ok? ==> WellFormed(r.value)
    ensures r.Ok? ==> EchoTarget(path).Ok? && FileAppended(fs, r.value, EchoTarget(path).value.fileName)
  {
    var target := EchoTarget(path);
    if target.Err? then Err(target.error)
    else
      var parent := ResolveParent(fs, search, cur, drive, target.value.parentPath);
      if parent.Err? then Err(parent.error)
      else CreateFileIn(fs, parent.value, target.value.fileName)
  }

  /** The last step of `echo`: append an empty file `name` to directory `p`
      unless some entry there already has that name ignoring case. */
  function CreateFileIn(fs: FileSystem, p: NodeId, name: string): (r: Result<FileSystem>)
    requires WellFormed(fs) && p in fs.nodes
    ensures r.Ok? ==> WellFormed(r.value) && r.value == SetEntries(fs, p, fs.nodes[p].entries + [NewFile(name)])
    ensures r.Ok? ==> FileAppended(fs, r.value, name)
    ensures r.Err? <==> HasClash(fs.nodes[p].entries, name, AnyIgnoringCase)
    ensures r == Err(AlreadyExists) <==> HasClash(fs.nodes[p].entries, name, AnyIgnoringCase)
  {
    var entries := fs.nodes[p].entries;
    match AddFile(entries, name)
    case Err(e) => Err(e)
    case Ok(es) =>
      assert es == entries + [NewFile(name)];
      AppendFileKeepsWellFormed(fs, p, name);
      Ok(SetEntries(fs, p, es))
  }

  /** Appending a file entry keeps the tree well formed: files link nowhere. */
  lemma AppendFileKeepsWellFormed(fs: FileSystem, p: NodeId, name: string)
    requires WellFormed(fs) && p in fs.nodes
    ensures var r := SetEntries(fs, p, fs.nodes[p].entries + [NewFile(name)]);
      WellFormed(r) && FileAppended(fs, r, name)
  {
    var es := fs.nodes[p].entries + [NewFile(name)];
    assert forall i :: 0 <= i < |es| && es[i].isDir ==> LinksBack(fs, p, es[i]) by {
      forall i | 0 <= i < |es| && es[i].isDir
        ensures LinksBack(fs, p, es[i])
      {
        assert i < |fs.nodes[p].entries| && es[i] == fs.nodes[p].entries[i];
      }
    }
    SetEntriesKeepsWellFormed(fs, p, es);
  }

  /** Once the target and its parent directory are known, `echo` is refused
      with "already exists" exactly when a name there clashes ignoring case. */
  lemma EchoRefusesClash(fs: FileSystem, search: Searcher, cur: NodeId, drive: string, path: string)
    requires WellFormed(fs) && SearchOk(search) && cur in fs.nodes
    requires EchoTarget(path).Ok?
    requires ResolveParent(fs, search, cur, drive, EchoTarget(path).value.parentPath).Ok?
    ensures var t := EchoTarget(path).value;
      var p := ResolveParent(fs, search, cur, drive, t.parentPath).value;
      Echo(fs, search, cur, drive, path) == Err(AlreadyExists) <==> HasClash(fs.nodes[p].entries, t.fileName, AnyIgnoringCase)
  {
  }

  /** Creating a file keeps every directory's names unique ignoring case. */
  lemma CreateFileKeepsSiblingsUnique(fs: FileSystem, p: NodeId, name: string)
    requires WellFormed(fs) && p in fs.nodes && SiblingsUnique(fs)
    requires CreateFileIn(fs, p, name).Ok?
    ensures SiblingsUnique(CreateFileIn(fs, p, name).value)
  {
    var entries := fs.nodes[p].entries;
    var es := entries + [NewFile(name)];
    AddFileKeepsUnique(entries, name);
    assert AddFile(entries, name).value == es;
    SetEntriesKeepsSiblingsUnique(fs, p, es);
    assert CreateFileIn(fs, p, name).value == SetEntries(fs, p, es);
  }

  /** `echo` keeps every directory's names unique ignoring case. */
  lemma EchoKeepsSiblingsUnique(fs: FileSystem, search: Searcher, cur: NodeId, drive: string, path: string)
    requires WellFormed(fs) && SearchOk(search) && cur in fs.nodes
    requires SiblingsUnique(fs)
    requires Echo(fs, search, cur, drive, path).Ok?
    ensures SiblingsUnique(Echo(fs, search, cur, drive, path).value)
  {
    var t := EchoTarget(path).value;
    var p := ResolveParent(fs, search, cur, drive, t.parentPath).value;
    CreateFileKeepsSiblingsUnique(fs, p, t.fileName);
  }

  /** A leading backslash with nothing before it gives an empty parent path,
      so `echo \F.TXT` creates the file in the current directory, not at the root. */
  lemma EchoLeadingBackslashUsesCurrent(name: string)
    requires IsValidFileName(name) && name[|name| - 1] != Space
    ensures EchoTarget([Backslash] + name).Ok?
    ensures EchoTarget([Backslash] + name).value.parentPath == []
  {
    var p := [Backslash] + name;
    assert p[|p| - 1] == name[|name| - 1];
    TrimmedIsFixed(p);
    assert HasSeparator(p) by { assert p[0] in Separators; }
    var sp := SplitAtLastSeparator(p);
    assert sp.leaf == name by {
      assert forall i :: 0 <= i < |name| ==> p[i + 1] == name[i];
      assert forall i :: 0 <= i < |name| ==> name[i] !in Separators;
      assert p[..0] + [p[0]] + name == p;
    }
  }

  // ---------------------------------------------------------------- md

  /** `handleMd`: split the path, resolve the parent, refuse a name that an
      existing directory has ignoring case (files are not compared), then
      take the cluster the allocator offered (-1 when the disk is full),
      clean the name (`Directory_Entry::cleanTheName`, not part of this model)
      and link a new, empty directory node `newNode` under the parent. */
  function MakeDirectory(fs: FileSystem, search: Searcher, cur: NodeId, drive: string, path: string,
                         cluster: int, clean: string -> string, newNode: NodeId): (r: Result<FileSystem>)
    requires WellFormed(fs) && SearchOk(search) && cur in fs.nodes
    requires newNode !in fs.nodes
    ensures var sp := SplitAtLastSeparator(path);
            var parent := ResolveParent(fs, search, cur, drive, sp.parent);
            && (parent.Err? ==> r == Err(parent.error))
            && (parent.Ok? ==> r == MakeDirectoryIn(fs, parent.value, sp.leaf, cluster, clean, newNode))
    ensures r.Ok? ==> WellFormed(r.value)
    ensures r.Ok? ==> r.value.root == fs.root && r.value.nodes.Keys == fs.nodes.Keys + {newNode}
    ensures r.Ok? ==> r.value.nodes[newNode].entries == [] && r.value.nodes[newNode].name != []
    ensures r.Ok? ==> r.value.nodes[newNode].parent.Some? && r.value.nodes[newNode].parent.value in fs.nodes
    ensures r.Ok? ==> forall id :: id in fs.nodes && Some(id) != r.value.nodes[newNode].parent ==> r.value.nodes[id] == fs.nodes[id]
    ensures cluster == -1 ==> r.Err?
  {
    var sp := SplitAtLastSeparator(path);
    match ResolveParent(fs, search, cur, drive, sp.parent)
    case Err(e) => Err(e)
    case Ok(p) => MakeDirectoryIn(fs, p, sp.leaf, cluster, clean, newNode)
  }

  /** The steps of `md` after the parent `p` is known. */
  function MakeDirectoryIn(fs: FileSystem, p: NodeId, leaf: string,
                           cluster: int, clean: string -> string, newNode: NodeId): (r: Result<FileSystem>)
    requires WellFormed(fs) && p in fs.nodes && newNode !in fs.nodes
    ensures r.Ok? ==> WellFormed(r.value)
    ensures r.Ok? ==> r.value.root == fs.root && r.value.nodes.Keys == fs.nodes.Keys + {newNode}
    ensures r.Ok? ==> r.value.nodes[newNode] == Node(clean(leaf), Some(p), []) && clean(leaf) != []
    ensures r.Ok? ==> forall id :: id in fs.nodes && id != p ==> r.value.nodes[id] == fs.nodes[id]
    ensures r.Ok? ==> r.value.nodes[p].entries == fs.nodes[p].entries + [NewDirectory(clean(leaf), newNode)]
    ensures r.Ok? <==> !HasClash(fs.nodes[p].entries, leaf, DirectoryIgnoringCase) && cluster != -1 && clean(leaf) != []
    ensures HasClash(fs.nodes[p].entries, leaf, DirectoryIgnoringCase) ==> r == Err(AlreadyExists)
    ensures !HasClash(fs.nodes[p].entries, leaf, DirectoryIgnoringCase) && cluster == -1 ==> r == Err(NoSpace)
    ensures !HasClash(fs.nodes[p].entries, leaf, DirectoryIgnoringCase) && cluster != -1 && clean(leaf) == [] ==> r == Err(InvalidName)
    ensures cluster == -1 ==> r.Err?
  {
    var entries := fs.nodes[p].entries;
    if HasClash(entries, leaf, DirectoryIgnoringCase) then Err(AlreadyExists)
    else if cluster == -1 then Err(NoSpace)
    else
      var name := clean(leaf);
      if name == [] then Err(InvalidName)
      else Ok(LinkNewDirectory(fs, p, leaf, name, newNode))
  }

  /** A new, empty directory node `newNode` called `name`, linked under `p`
      by an entry appended to `p`'s list. */
  function LinkNewDirectory(fs: FileSystem, p: NodeId, leaf: string, name: string, newNode: NodeId): (r: FileSystem)
    requires WellFormed(fs) && p in fs.nodes && newNode !in fs.nodes
    requires !HasClash(fs.nodes[p].entries, leaf, DirectoryIgnoringCase)
    ensures WellFormed(r)
    ensures r.root == fs.root && r.nodes.Keys == fs.nodes.Keys + {newNode}
    ensures r.nodes[newNode] == Node(name, Some(p), [])
    ensures r.nodes[p].entries == fs.nodes[p].entries + [NewDirectory(name, newNode)]
    ensures forall id :: id in fs.nodes && id != p ==> r.nodes[id] == fs.nodes[id]
    ensures r.nodes[p].entries == AddDirectory(fs.nodes[p].entries, leaf, name, newNode).value
  {
    var es := fs.nodes[p].entries + [NewDirectory(name, newNode)];
    assert AddDirectory(fs.nodes[p].entries, leaf, name, newNode) == Ok(es);
    LinkKeepsWellFormed(fs, p, name, newNode);
    SetEntries(Grow(fs, newNode, name, p), p, es)
  }

  /** `fs` with the unlinked, empty node `newNode` added under `p`. */
  function Grow(fs: FileSystem, newNode: NodeId, name: string, p: NodeId): (r: FileSystem)
    requires newNode !in fs.nodes
    ensures r.root == fs.root && r.nodes.Keys == fs.nodes.Keys + {newNode}
    ensures r.nodes[newNode] == Node(name, Some(p), [])
    ensures forall id :: id in fs.nodes ==> r.nodes[id] == fs.nodes[id]
  {
    fs.(nodes := fs.nodes[newNode := Node(name, Some(p), [])])
  }

  /** The node added and the entry appended by `md` keep the tree well formed. */
  lemma LinkKeepsWellFormed(fs: FileSystem, p: NodeId, name: string, newNode: NodeId)
    requires WellFormed(fs) && p in fs.nodes && newNode !in fs.nodes
    ensures WellFormed(SetEntries(Grow(fs, newNode, name, p), p, fs.nodes[p].entries + [NewDirectory(name, newNode)]))
  {
    var entries := fs.nodes[p].entries;
    var es := entries + [NewDirectory(name, newNode)];
    var grown := Grow(fs, newNode, name, p);
    GrowKeepsWellFormed(fs, newNode, name, p);
    assert forall i :: 0 <= i < |entries| && entries[i].isDir ==> LinksBack(fs, p, entries[i]);
    assert forall i :: 0 <= i < |es| && es[i].isDir ==> LinksBack(grown, p, es[i]);
    SetEntriesKeepsWellFormed(grown, p, es);
  }

  /** Adding an unlinked, empty node under a loaded parent keeps the tree
      well formed, and every existing link stays valid. */
  lemma GrowKeepsWellFormed(fs: FileSystem, newNode: NodeId, name: string, p: NodeId)
    requires WellFormed(fs) && newNode !in fs.nodes && p in fs.nodes
    ensures var grown := Grow(fs, newNode, name, p);
      && WellFormed(grown)
      && forall n, e :: n in fs.nodes && LinksBack(fs, n, e) ==> LinksBack(grown, n, e)
  {
    var grown := Grow(fs, newNode, name, p);
    GrowReachesRoot(fs, newNode, Node(name, Some(p), []));
    forall n, e | n in fs.nodes && LinksBack(fs, n, e)
      ensures LinksBack(grown, n, e)
    {
      assert e.child.value != newNode;
    }
    forall n, i | n in grown.nodes && 0 <= i < |grown.nodes[n].entries| && grown.nodes[n].entries[i].isDir
      ensures LinksBack(grown, n, grown.nodes[n].entries[i])
    {
      assert n != newNode;
      assert LinksBack(fs, n, fs.nodes[n].entries[i]);
    }
  }

  // ---------------------------------------------------------------- rd

  /** `fs'` is `fs` without one entry that named an empty directory. */
  ghost predicate EmptyDirectoryRemoved(fs: FileSystem, fs': FileSystem) {
    exists p, k :: p in fs.nodes && 0 <= k < |fs.nodes[p].entries|
      && fs.nodes[p].entries[k].isDir
      && LinksBack(fs, p, fs.nodes[p].entries[k])
      && fs.nodes[fs.nodes[p].entries[k].child.value].entries == []
      && fs' == SetEntries(fs, p, RemoveAt(fs.nodes[p].entries, k))
  }

  /** One directory of `handleRd`: the user must confirm, the name must be
      found, must be a directory and that directory must be empty; then its
      entry is erased from the parent. The node itself stays in the arena,
      unreachable (the source frees it). */
  function RemoveDirectory(fs: FileSystem, search: Searcher, cur: NodeId, drive: string, dirPath: string, confirmed: bool): (r: Result<FileSystem>)
    requires WellFormed(fs) && SearchOk(search) && cur in fs.nodes
    ensures !confirmed ==> r == Err(Skipped)
    ensures confirmed ==>
              var sp := SplitAtLastSeparator(dirPath);
              var parent := ResolveParent(fs, search, cur, drive, sp.parent);
              && (parent.Err? ==> r == Err(parent.error))
              && (parent.Ok? ==> r == RemoveEntryIn(fs, parent.value, search(fs.nodes[parent.value].entries, sp.leaf)))
    ensures r.Ok? ==> WellFormed(r.value) && r.value.root == fs.root && r.value.nodes.Keys == fs.nodes.Keys
    ensures r.Ok? ==> EmptyDirectoryRemoved(fs, r.value)
  {
    if !confirmed then Err(Skipped)
    else
      var sp := SplitAtLastSeparator(dirPath);
      match ResolveParent(fs, search, cur, drive, sp.parent)
      case Err(e) => Err(e)
      case Ok(p) => RemoveEntryIn(fs, p, search(fs.nodes[p].entries, sp.leaf))
  }

  /** `e` names a loaded directory without entries. */
  predicate IsEmptyDirectoryEntry(fs: FileSystem, e: Entry) {
    e.isDir && e.child.Some? && e.child.value in fs.nodes && fs.nodes[e.child.value].entries == []
  }

  /** The steps of `rd` after the search: `k` is the index it returned. */
  function RemoveEntryIn(fs: FileSystem, p: NodeId, k: int): (r: Result<FileSystem>)
    requires WellFormed(fs) && p in fs.nodes && -1 <= k < |fs.nodes[p].entries|
    ensures k == -1 ==> r == Err(NotFound)
    ensures r.Ok? <==> k != -1 && IsEmptyDirectoryEntry(fs, fs.nodes[p].entries[k])
    ensures k != -1 && !fs.nodes[p].entries[k].isDir ==> r == Err(NotADirectory)
    ensures k != -1 && fs.nodes[p].entries[k].isDir && !IsEmptyDirectoryEntry(fs, fs.nodes[p].entries[k]) ==> r == Err(NotEmpty)
    ensures r.Ok? ==> 0 <= k && r.value == SetEntries(fs, p, RemoveAt(fs.nodes[p].entries, k))
    ensures r.Ok? ==> WellFormed(r.value) && EmptyDirectoryRemoved(fs, r.value)
  {
    var entries := fs.nodes[p].entries;
    if k == -1 then Err(NotFound)
    else if !entries[k].isDir then Err(NotADirectory)
    else
      assert LinksBack(fs, p, entries[k]);
      if fs.nodes[entries[k].child.value].entries != [] then Err(NotEmpty)
      else
        var es := RemoveAt(entries, k);
        assert forall i :: 0 <= i < |es| && es[i].isDir ==> LinksBack(fs, p, es[i]) by {
          forall i | 0 <= i < |es| && es[i].isDir
            ensures LinksBack(fs, p, es[i])
          {
            if i < k { assert es[i] == entries[i]; } else { assert es[i] == entries[i + 1]; }
          }
        }
        SetEntriesKeepsWellFormed(fs, p, es);
        Ok(SetEntries(fs, p, es))
  }

  /** `handleRd` over all its arguments, each with its own confirmation; a
      failure is reported and the next directory is tried. */
  function RemoveDirectories(fs: FileSystem, search: Searcher, cur: NodeId, drive: string,
                             paths: seq<string>, answers: seq<bool>): (r: Result<FileSystem>)
    requires WellFormed(fs) && SearchOk(search) && cur in fs.nodes
    requires |answers| == |paths|
    ensures |paths| == 0 <==> r == Err(InvalidSyntax)
    ensures |paths| > 0 ==> r == Ok(RemoveEach(fs, search, cur, drive, paths, answers))
    ensures r.Ok? ==> WellFormed(r.value) && r.value.root == fs.root && r.value.nodes.Keys == fs.nodes.Keys
    ensures (forall i :: 0 <= i < |answers| ==> !answers[i]) && r.Ok? ==> r.value == fs
  {
    if |paths| == 0 then Err(InvalidSyntax)
    else Ok(RemoveEach(fs, search, cur, drive, paths, answers))
  }

  function RemoveEach(fs: FileSystem, search: Searcher, cur: NodeId, drive: string,
                      paths: seq<string>, answers: seq<bool>): (r: FileSystem)
    requires WellFormed(fs) && SearchOk(search) && cur in fs.nodes
    requires |answers| == |paths|
    ensures WellFormed(r) && r.root == fs.root && r.nodes.Keys == fs.nodes.Keys
    ensures (forall i :: 0 <= i < |answers| ==> !answers[i]) ==> r == fs
    decreases |paths|
  {
    if |paths| == 0 then fs
    else
      var next := match RemoveDirectory(fs, search, cur, drive, paths[0], answers[0])
                  case Ok(fs') => fs'
                  case Err(_) => fs;
      RemoveEach(next, search, cur, drive, paths[1..], answers[1..])
  }

  /** One argument: a confirmed `rd` that succeeds leaves its tree behind,
      anything else (declined or failed) leaves the tree as it was. */
  lemma RemoveEachSingle(fs: FileSystem, search: Searcher, cur: NodeId, drive: string, path: string, answer: bool)
    requires WellFormed(fs) && SearchOk(search) && cur in fs.nodes
    ensures var r := RemoveDirectory(fs, search, cur, drive, path, answer);
      RemoveEach(fs, search, cur, drive, [path], [answer]) == if r.Ok? then r.value else fs
  {
    var r := RemoveDirectory(fs, search, cur, drive, path, answer);
    var next := if r.Ok? then r.value else fs;
    assert RemoveEach(next, search, cur, drive, [], []) == next;
  }

  /** The arguments are handled one after another: removing `p1` then `p2`
      is removing `p1 + p2`. */
  lemma {:induction false} RemoveEachAppend(fs: FileSystem, search: Searcher, cur: NodeId, drive: string,
                                            p1: seq<string>, a1: seq<bool>, p2: seq<string>, a2: seq<bool>)
    requires WellFormed(fs) && SearchOk(search) && cur in fs.nodes
    requires |a1| == |p1| && |a2| == |p2|
    ensures RemoveEach(fs, search, cur, drive, p1 + p2, a1 + a2)
         == RemoveEach(RemoveEach(fs, search, cur, drive, p1, a1), search, cur, drive, p2, a2)
    decreases |p1|
  {
    if |p1| == 0 {
      assert p1 + p2 == p2 && a1 + a2 == a2;
    } else {
      assert (p1 + p2)[0] == p1[0] && (a1 + a2)[0] == a1[0];
      assert (p1 + p2)[1..] == p1[1..] + p2 && (a1 + a2)[1..] == a1[1..] + a2;
      var next := match RemoveDirectory(fs, search, cur, drive, p1[0], a1[0])
                  case Ok(fs') => fs'
                  case Err(_) => fs;
      RemoveEachAppend(next, search, cur, drive, p1[1..], a1[1..], p2, a2);
    }
  }

  /** `rd` over several arguments keeps every directory's names unique ignoring case. */
  lemma {:induction false} RemoveEachKeepsSiblingsUnique(fs: FileSystem, search: Searcher, cur: NodeId, drive: string,
                                                         paths: seq<string>, answers: seq<bool>)
    requires WellFormed(fs) && SearchOk(search) && cur in fs.nodes && SiblingsUnique(fs)
    requires |answers| == |paths|
    ensures SiblingsUnique(RemoveEach(fs, search, cur, drive, paths, answers))
    decreases |paths|
  {
    if |paths| > 0 {
      var r := RemoveDirectory(fs, search, cur, drive, paths[0], answers[0]);
      if r.Ok? {
        RemoveDirectoryKeepsSiblingsUnique(fs, search, cur, drive, paths[0], answers[0]);
      }
      var next := if r.Ok? then r.value else fs;
      RemoveEachKeepsSiblingsUnique(next, search, cur, drive, paths[1..], answers[1..]);
    }
  }

  /** `rd` keeps every directory's names unique ignoring case. */
  lemma RemoveDirectoryKeepsSiblingsUnique(fs: FileSystem, search: Searcher, cur: NodeId, drive: string, dirPath: string, confirmed: bool)
    requires WellFormed(fs) && SearchOk(search) && cur in fs.nodes
    requires SiblingsUnique(fs)
    requires RemoveDirectory(fs, search, cur, drive, dirPath, confirmed).Ok?
    ensures SiblingsUnique(RemoveDirectory(fs, search, cur, drive, dirPath, confirmed).value)
  {
    var sp := SplitAtLastSeparator(dirPath);
    var p := ResolveParent(fs, search, cur, drive, sp.parent).value;
    var k := search(fs.nodes[p].entries, sp.leaf);
    RemoveAtKeepsUnique(fs.nodes[p].entries, k);
    SetEntriesKeepsSiblingsUnique(fs, p, RemoveAt(fs.nodes[p].entries, k));
  }

  // ------------------------------------------------------------ rename

  lemma FullPathHasBackslash(filePath: string)
    requires IsFullPath(filePath)
    ensures Backslash in filePath
  {
    if Contains(filePath, ":\\") {
      ContainsChar(filePath, ":\\", Backslash);
    }
  }

  /** `rename`'s test for a full path: it contains `:\` or starts with `\`. */
  predicate IsFullPath(filePath: string) {
    Contains(filePath, ":\\") || (|filePath| > 0 && filePath[0] == Backslash)
  }

  /** Where `rename` looks for the file: a full path is cut at its last
      backslash, the part before it resolved with `MoveToDir` and the part
      after it taken as the name; anything else is a name in the current
      directory. */
  function RenameTarget(fs: FileSystem, search: Searcher, cur: NodeId, drive: string, filePath: string): (r: Result<(NodeId, string)>)
    requires WellFormed(fs) && SearchOk(search) && cur in fs.nodes
    ensures r.Ok? ==> r.value.0 in fs.nodes
    ensures !IsFullPath(filePath) ==> r == Ok((cur, filePath))
    ensures IsFullPath(filePath) ==>
              && LastIndexIn(filePath, {Backslash}).Some?
              && var i := LastIndexIn(filePath, {Backslash}).value;
                 var dir := MoveToDir(fs, search, cur, drive, filePath[..i]);
                 && (dir.Err? ==> r == Err(NotFound))
                 && (dir.Ok? ==> r == Ok((dir.value, filePath[i + 1..])))
    ensures IsFullPath(filePath) && r.Ok? ==> Backslash !in r.value.1
  {
    if IsFullPath(filePath) then
      FullPathHasBackslash(filePath);
      var i := LastIndexIn(filePath, {Backslash}).value;
      match MoveToDir(fs, search, cur, drive, filePath[..i])
      case Err(_) => Err(NotFound)
      case Ok(d) => Ok((d, filePath[i + 1..]))
    else Ok((cur, filePath))
  }

  /** `fs'` is `fs` with one file entry of one directory renamed to `name`,
      in a directory where no entry had exactly that name. */
  ghost predicate FileRenamed(fs: FileSystem, fs': FileSystem, name: string) {
    exists p, k :: p in fs.nodes && 0 <= k < |fs.nodes[p].entries|
      && !fs.nodes[p].entries[k].isDir
      && (forall i :: 0 <= i < |fs.nodes[p].entries| ==> fs.nodes[p].entries[i].name != name)
      && fs' == SetEntries(fs, p, fs.nodes[p].entries[k := fs.nodes[p].entries[k].(name := name)])
  }

  /** `handleRename`: exactly two arguments, a new name without `\` or `:`,
      the file found by the directory search and not a directory, and no
      entry already carrying exactly the new name. */
  function Rename(fs: FileSystem, search: Searcher, cur: NodeId, drive: string, args: seq<string>): (r: Result<FileSystem>)
    requires WellFormed(fs) && SearchOk(search) && cur in fs.nodes
    ensures |args| != 2 ==> r == Err(InvalidSyntax)
    ensures |args| == 2 && (Backslash in args[1] || ':' in args[1]) ==> r == Err(PathNotAllowed)
    ensures |args| == 2 && !(Backslash in args[1] || ':' in args[1]) ==>
              var target := RenameTarget(fs, search, cur, drive, args[0]);
              && (target.Err? ==> r == Err(target.error))
              && (target.Ok? ==>
                    var dir := target.value.0;
                    r == RenameIn(fs, dir, search(fs.nodes[dir].entries, target.value.1), args[1]))
    ensures r.Ok? ==> WellFormed(r.value) && r.value.root == fs.root && r.value.nodes.Keys == fs.nodes.Keys
    ensures r.Ok? ==> FileRenamed(fs, r.value, args[1])
  {
    if |args| != 2 then Err(InvalidSyntax)
    else
      var newName := args[1];
      if Backslash in newName || ':' in newName then Err(PathNotAllowed)
      else
        match RenameTarget(fs, search, cur, drive, args[0])
        case Err(e) => Err(e)
        case Ok((dir, fileName)) => RenameIn(fs, dir, search(fs.nodes[dir].entries, fileName), newName)
  }

  /** The steps of `rename` after the search: `k` is the index it returned. */
  function RenameIn(fs: FileSystem, dir: NodeId, k: int, newName: string): (r: Result<FileSystem>)
    requires WellFormed(fs) && dir in fs.nodes && -1 <= k < |fs.nodes[dir].entries|
    ensures k == -1 ==> r == Err(NotFound)
    ensures k != -1 && fs.nodes[dir].entries[k].isDir ==> r == Err(IsADirectory)
    ensures k != -1 && !fs.nodes[dir].entries[k].isDir ==>
              (r == Err(AlreadyExists) <==> exists i :: 0 <= i < |fs.nodes[dir].entries| && fs.nodes[dir].entries[i].name == newName)
    ensures r.Ok? <==> k != -1 && !fs.nodes[dir].entries[k].isDir
                       && forall i :: 0 <= i < |fs.nodes[dir].entries| ==> fs.nodes[dir].entries[i].name != newName
    ensures r.Ok? ==> r.value == SetEntries(fs, dir, fs.nodes[dir].entries[k := fs.nodes[dir].entries[k].(name := newName)])
    ensures r.Ok? ==> WellFormed(r.value) && FileRenamed(fs, r.value, newName)
  {
    var entries := fs.nodes[dir].entries;
    match RenameEntry(entries, k, newName)
    case Err(e) => Err(e)
    case Ok(es) =>
      assert es == entries[k := entries[k].(name := newName)];
      RenameKeepsWellFormed(fs, dir, k, newName);
      Ok(SetEntries(fs, dir, es))
  }

  /** Renaming a file entry keeps the tree well formed. */
  lemma RenameKeepsWellFormed(fs: FileSystem, dir: NodeId, k: nat, newName: string)
    requires WellFormed(fs) && dir in fs.nodes && k < |fs.nodes[dir].entries| && !fs.nodes[dir].entries[k].isDir
    ensures WellFormed(SetEntries(fs, dir, fs.nodes[dir].entries[k := fs.nodes[dir].entries[k].(name := newName)]))
  {
    var entries := fs.nodes[dir].entries;
    var es := entries[k := entries[k].(name := newName)];
    assert forall i :: 0 <= i < |es| && es[i].isDir ==> LinksBack(fs, dir, es[i]) by {
      forall i | 0 <= i < |es| && es[i].isDir
        ensures LinksBack(fs, dir, es[i])
      {
        assert i != k && es[i] == entries[i];
      }
    }
    SetEntriesKeepsWellFormed(fs, dir, es);
  }
}

=== FILE: echo.dfy ===
/** How `echo` turns its argument into a parent path and a file name:
    trim spaces, split at the last separator, validate the name, and add
    `.txt` when the name has no usable extension. */
module EchoName {
  import opened Outcome
  import opened Ascii
  import opened FileName
  import opened Paths

  const Space: char := ' '
  const DefaultExtension: string := ".txt"

  /** `find_first_not_of(' ')`, with `|s|` standing for `npos`. */
  function LeadingSpaces(s: string): (n: nat)
    ensures n <= |s|
    ensures forall i :: 0 <= i < n ==> s[i] == Space
    ensures n < |s| ==> s[n] != Space
  {
    if |s| > 0 && s[0] == Space then 1 + LeadingSpaces(s[1..]) else 0
  }

  /** The number of spaces at the end of `s`; `find_last_not_of(' ')` is the
      position just before them. */
  function TrailingSpaces(s: string): (n: nat)
    ensures n <= |s|
    ensures forall i :: |s| - n <= i < |s| ==> s[i] == Space
    ensures n < |s| ==> s[|s| - n - 1] != Space
  {
    if |s| > 0 && s[|s| - 1] == Space then 1 + TrailingSpaces(s[..|s| - 1]) else 0
  }

  /** Spaces trimmed at both ends: the leading ones are erased first, then the
      trailing ones. The result is the slice of `s` between the two runs of
      spaces, and only spaces lie outside it. */
  function TrimSpaces(s: string): (r: string)
    ensures r == [] <==> forall i :: 0 <= i < |s| ==> s[i] == Space
    ensures r != [] ==> r[0] != Space && r[|r| - 1] != Space
    ensures LeadingSpaces(s) + |r| <= |s|
    ensures r == s[LeadingSpaces(s)..LeadingSpaces(s) + |r|]
    ensures forall i :: 0 <= i < |s| && !(LeadingSpaces(s) <= i < LeadingSpaces(s) + |r|) ==> s[i] == Space
  {
    var a := LeadingSpaces(s);
    if a == |s| then []
    else
      var left := s[a..];
      var b := TrailingSpaces(left);
      left[..|left| - b]
  }

  /** Trimming a string that neither starts nor ends with a space leaves it alone. */
  lemma TrimmedIsFixed(s: string)
    requires s == [] || (s[0] != Space && s[|s| - 1] != Space)
    ensures TrimSpaces(s) == s
  {
    if s != [] {
      assert LeadingSpaces(s) == 0;
      assert TrailingSpaces(s[0..]) == 0;
    }
  }

  /** Trimming is idempotent. */
  lemma TrimIdempotent(s: string)
    ensures TrimSpaces(TrimSpaces(s)) == TrimSpaces(s)
  {
    TrimmedIsFixed(TrimSpaces(s));
  }

  /** One more space in front does not change the trimmed text. */
  lemma TrimIgnoresLeadingSpace(s: string)
    ensures TrimSpaces([Space] + s) == TrimSpaces(s)
  {
    var p := [Space] + s;
    assert p[1..] == s;
    assert LeadingSpaces(p) == 1 + LeadingSpaces(s);
    assert p[1 + LeadingSpaces(s)..] == s[LeadingSpaces(s)..];
  }

  /** One more space at the end does not change the trimmed text. */
  lemma TrimIgnoresTrailingSpace(s: string)
    ensures TrimSpaces(s + [Space]) == TrimSpaces(s)
  {
    var q := s + [Space];
    var a := LeadingSpaces(s);
    if a < |s| {
      LeadingSpacesPrefix(s, [Space]);
      var left := s[a..];
      assert q[a..] == left + [Space];
      DropTrailingSpace(left);
    } else {
      AllSpaces(q);
    }
  }

  /** Cutting the trailing spaces off `left` with one more space appended
      leaves the same text. */
  lemma DropTrailingSpace(left: string)
    ensures var l := left + [Space];
      l[..|l| - TrailingSpaces(l)] == left[..|left| - TrailingSpaces(left)]
  {
    TrailingSpacesSuffix(left);
    assert (left + [Space])[..|left| - TrailingSpaces(left)] == left[..|left| - TrailingSpaces(left)];
  }

  lemma TrailingSpacesSuffix(s: string)
    ensures TrailingSpaces(s + [Space]) == 1 + TrailingSpaces(s)
  {
    assert (s + [Space])[..|s|] == s;
  }

  lemma AllSpaces(s: string)
    requires forall i :: 0 <= i < |s| - 1 ==> s[i] == Space
    requires 0 < |s| && s[|s| - 1] == Space
    ensures LeadingSpaces(s) == |s|
  {
  }

  lemma {:induction false} LeadingSpacesPrefix(s: string, t: string)
    requires LeadingSpaces(s) < |s|
    ensures LeadingSpaces(s + t) == LeadingSpaces(s)
  {
    if s[0] == Space {
      assert (s + t)[1..] == s[1..] + t;
      LeadingSpacesPrefix(s[1..], t);
    }
  }

  /** The name has a dot that is neither its first nor its last character
      and no dot after it. */
  predicate HasUsableExtension(name: string) {
    exists d :: IsLastDot(name, d) && 0 < d < |name| - 1
  }

  /** Step 7 of `echo`: append `.txt` when the last dot is missing, first or last. */
  function WithDefaultExtension(name: string): (r: string)
    ensures HasUsableExtension(name) ==> r == name
    ensures !HasUsableExtension(name) ==> r == name + DefaultExtension
  {
    match LastIndexIn(name, {'.'})
    case None => name + DefaultExtension
    case Some(d) =>
      LastDotIsUnique(name, d);
      if d == 0 || d == |name| - 1 then name + DefaultExtension else name
  }

  /** For a non-empty name the result always carries a usable extension, so
      adding the default extension twice is the same as adding it once. */
  lemma DefaultExtensionIdempotent(name: string)
    requires name != []
    ensures HasUsableExtension(WithDefaultExtension(name))
    ensures WithDefaultExtension(WithDefaultExtension(name)) == WithDefaultExtension(name)
  {
    if !HasUsableExtension(name) {
      var r := name + DefaultExtension;
      assert IsLastDot(r, |name|);
    }
  }

  /** For a name the validator accepted, `.txt` is added exactly when the
      name has no dot at all: a leading or final dot cannot pass the validator. */
  lemma ValidNameGetsExtensionIffDotFree(name: string)
    requires IsValidFileName(name)
    ensures WithDefaultExtension(name) == name + DefaultExtension <==> '.' !in name
    ensures '.' in name ==> WithDefaultExtension(name) == name
  {
    match LastIndexIn(name, {'.'})
    case None =>
    case Some(d) =>
      assert IsLastDot(name, d);
      assert |name + DefaultExtension| != |name|;
  }

  /** As written, a dot-free name of 9 to 11 characters passes the validator
      but the name `echo` stores then has a base longer than 8 characters. */
  lemma ExtendedNameCanBreak83()
    ensures IsValidFileName("ABCDEFGHI")
    ensures WithDefaultExtension("ABCDEFGHI") == "ABCDEFGHI.txt"
    ensures !IsValidFileName("ABCDEFGHI.txt")
  {
    assert forall i :: 0 <= i < |"ABCDEFGHI"| ==> "ABCDEFGHI"[i] != '.';
  }

  /** Where `echo` creates the file: the parent path to resolve and the name. */
  datatype Target = Target(parentPath: string, fileName: string)

  /** Steps 1 to 7 of `echo`. */
  function EchoTarget(path: string): (r: Result<Target>)
    ensures r == Err(InvalidSyntax) <==> forall i :: 0 <= i < |path| ==> path[i] == Space
    ensures r.Err? ==> r.error in {InvalidSyntax, InvalidName}
    ensures r == Err(InvalidName) <==>
              TrimSpaces(path) != [] && !IsValidFileName(SplitAtLastSeparator(TrimSpaces(path)).leaf)
    ensures r.Ok? ==>
              var sp := SplitAtLastSeparator(TrimSpaces(path));
              r.value.parentPath == sp.parent && r.value.fileName == WithDefaultExtension(sp.leaf)
    ensures r.Ok? ==>
              && HasUsableExtension(r.value.fileName)
              && (forall i :: 0 <= i < |r.value.fileName| ==> r.value.fileName[i] !in Separators)
              && r.value.fileName[|r.value.fileName| - 1] != Space
  {
    var trimmed := TrimSpaces(path);
    if trimmed == [] then Err(InvalidSyntax) else TargetOf(trimmed)
  }

  /** Steps 5 to 7 of `echo`, on the trimmed, non-empty argument. */
  function TargetOf(trimmed: string): (r: Result<Target>)
    requires trimmed != [] && trimmed[|trimmed| - 1] != Space
    ensures r.Err? <==> !IsValidFileName(SplitAtLastSeparator(trimmed).leaf)
    ensures r.Err? ==> r.error == InvalidName
    ensures r.Ok? ==>
              var sp := SplitAtLastSeparator(trimmed);
              r.value.parentPath == sp.parent && r.value.fileName == WithDefaultExtension(sp.leaf)
    ensures r.Ok? ==>
              && HasUsableExtension(r.value.fileName)
              && (forall i :: 0 <= i < |r.value.fileName| ==> r.value.fileName[i] !in Separators)
              && r.value.fileName[|r.value.fileName| - 1] != Space
  {
    var sp := SplitAtLastSeparator(trimmed);
    if !IsValidFileName(sp.leaf) then Err(InvalidName)
    else
      EchoLeafFacts(trimmed);
      Ok(Target(sp.parent, WithDefaultExtension(sp.leaf)))
  }

  /** The leaf of a split ends with the same character as the path. */
  lemma LeafEndsLikePath(s: string)
    requires SplitAtLastSeparator(s).leaf != []
    ensures var leaf := SplitAtLastSeparator(s).leaf; leaf[|leaf| - 1] == s[|s| - 1]
  {
  }

  /** What `echo` stores for a trimmed argument whose leaf passed validation. */
  lemma EchoLeafFacts(trimmed: string)
    requires trimmed != [] && trimmed[|trimmed| - 1] != Space
    requires IsValidFileName(SplitAtLastSeparator(trimmed).leaf)
    ensures var n := WithDefaultExtension(SplitAtLastSeparator(trimmed).leaf);
      && HasUsableExtension(n)
      && (forall i :: 0 <= i < |n| ==> n[i] !in Separators)
      && n[|n| - 1] != Space
  {
    var leaf := SplitAtLastSeparator(trimmed).leaf;
    assert leaf != [];
    LeafEndsLikePath(trimmed);
    assert leaf[|leaf| - 1] != Space;
    ExtendedLeaf(leaf);
  }

  /** What the default extension keeps of a separator-free leaf. */
  lemma ExtendedLeaf(leaf: string)
    requires leaf != [] && leaf[|leaf| - 1] != Space
    requires forall i :: 0 <= i < |leaf| ==> leaf[i] !in Separators
    ensures var n := WithDefaultExtension(leaf);
      && HasUsableExtension(n)
      && (forall i :: 0 <= i < |n| ==> n[i] !in Separators)
      && n[|n| - 1] != Space
  {
    DefaultExtensionIdempotent(leaf);
  }

  /** Spaces around the argument do not change where `echo` creates the file. */
  lemma EchoTargetIgnoresPadding(path: string)
    ensures EchoTarget([Space] + path + [Space]) == EchoTarget(path)
  {
    TrimIgnoresTrailingSpace([Space] + path);
    TrimIgnoresLeadingSpace(path);
  }
}

=== FILE: entries.dfy ===
/** A directory's entry list and the guards the shell runs over it before
    it appends, renames or removes an entry. */
module Entries {
  import opened Outcome
  import opened Ascii

  /** Handle of a directory node in the tree. */
  type NodeId = nat

  /** One name in a directory: a file or a subdirectory. `child` is the
      loaded subdirectory of a directory entry (the source's `subDirectory`
      pointer, absent when it is null). */
  datatype Entry = Entry(name: string, isDir: bool, size: nat, child: Option<NodeId>)

  /** A fresh, empty file entry as `echo` creates it. */
  function NewFile(name: string): Entry {
    Entry(name, false, 0, None)
  }

  /** A fresh directory entry as `md` creates it, already linked to its node. */
  function NewDirectory(name: string, node: NodeId): Entry {
    Entry(name, true, 0, Some(node))
  }

  /** Which existing entries a new name collides with: `echo` compares with
      every entry ignoring case, `md` only with directories ignoring case,
      `rename` with every entry exactly. */
  datatype ClashRule = AnyIgnoringCase | DirectoryIgnoringCase | AnyExact

  predicate Clashes(e: Entry, name: string, rule: ClashRule) {
    match rule
    case AnyIgnoringCase => SameIgnoringCase(e.name, name)
    case DirectoryIgnoringCase => e.isDir && SameIgnoringCase(e.name, name)
    case AnyExact => e.name == name
  }

  predicate HasClash(es: seq<Entry>, name: string, rule: ClashRule) {
    exists i :: 0 <= i < |es| && Clashes(es[i], name, rule)
  }

  /** The duplicate-name loop of echo, md and rename as the shell runs it:
      scans the entries in order and stops at the first collision. It is
      proved equal to `HasClash`, which the command functions use because a
      function cannot call a method. */
  method FindClash(es: seq<Entry>, name: string, rule: ClashRule) returns (found: bool)
    ensures found <==> HasClash(es, name, rule)
  {
    found := false;
    var i := 0;
    while i < |es|
      invariant 0 <= i <= |es|
      invariant forall j :: 0 <= j < i ==> !Clashes(es[j], name, rule)
    {
      if Clashes(es[i], name, rule) {
        found := true;
        return;
      }
      i := i + 1;
    }
  }

  /** No two siblings have names equal ignoring case. */
  predicate UniqueIgnoringCase(es: seq<Entry>) {
    forall i, j :: 0 <= i < j < |es| ==> !SameIgnoringCase(es[i].name, es[j].name)
  }

  /** No two siblings have exactly the same name. */
  predicate UniqueExact(es: seq<Entry>) {
    forall i, j :: 0 <= i < j < |es| ==> es[i].name != es[j].name
  }

  /** `echo`'s duplicate check and append. */
  function AddFile(es: seq<Entry>, name: string): (r: Result<seq<Entry>>)
    ensures r.Err? <==> exists i :: 0 <= i < |es| && SameIgnoringCase(es[i].name, name)
    ensures r.Err? ==> r.error == AlreadyExists
    ensures r.Ok? ==> |r.value| == |es| + 1 && r.value[..|es|] == es
    ensures r.Ok? ==> !r.value[|es|].isDir && r.value[|es|].name == name && r.value[|es|].size == 0
  {
    if HasClash(es, name, AnyIgnoringCase) then Err(AlreadyExists)
    else Ok(es + [NewFile(name)])
  }

  /** Appending through `AddFile` keeps sibling names unique ignoring case. */
  lemma AddFileKeepsUnique(es: seq<Entry>, name: string)
    requires UniqueIgnoringCase(es)
    requires AddFile(es, name).Ok?
    ensures UniqueIgnoringCase(AddFile(es, name).value)
  {
    var r := AddFile(es, name).value;
    forall i, j | 0 <= i < j < |r|
      ensures !SameIgnoringCase(r[i].name, r[j].name)
    {
      if j == |es| {
        assert r[i] == es[i];
      } else {
        assert r[i] == es[i] && r[j] == es[j];
      }
    }
  }

  /** Creating the same file twice, in any letter case, fails the second time
      and leaves the list as the first call made it. */
  lemma AddFileTwiceFails(es: seq<Entry>, name: string, again: string)
    requires AddFile(es, name).Ok?
    requires SameIgnoringCase(name, again)
    ensures AddFile(AddFile(es, name).value, again) == Err(AlreadyExists)
  {
    var r := AddFile(es, name).value;
    assert SameIgnoringCase(r[|es|].name, again);
  }

  /** `md`'s duplicate check and append: only directories are compared. */
  function AddDirectory(es: seq<Entry>, checkedName: string, storedName: string, node: NodeId): (r: Result<seq<Entry>>)
    ensures r.Err? <==> exists i :: 0 <= i < |es| && es[i].isDir && SameIgnoringCase(es[i].name, checkedName)
    ensures r.Err? ==> r.error == AlreadyExists
    ensures r.Ok? ==> |r.value| == |es| + 1 && r.value[..|es|] == es
    ensures r.Ok? ==> r.value[|es|].isDir && r.value[|es|].name == storedName && r.value[|es|].child == Some(node)
  {
    if HasClash(es, checkedName, DirectoryIgnoringCase) then Err(AlreadyExists)
    else Ok(es + [NewDirectory(storedName, node)])
  }

  /** As written, `md` accepts a directory whose name equals an existing
      file's name ignoring case, so the siblings stop being unique. */
  lemma AddDirectoryCanClashWithFile()
    ensures var es := [NewFile("A")];
      && UniqueIgnoringCase(es)
      && AddDirectory(es, "a", "a", 1).Ok?
      && !UniqueIgnoringCase(AddDirectory(es, "a", "a", 1).value)
  {
    var es := [NewFile("A")];
    assert !HasClash(es, "a", DirectoryIgnoringCase);
    var r := AddDirectory(es, "a", "a", 1).value;
    assert Lower(r[0].name) == Lower(r[1].name) == "a";
  }

  /** `rename`'s checks and the in-place rename of entry `k` (the index the
      directory search returned, -1 for not found). */
  function RenameEntry(es: seq<Entry>, k: int, newName: string): (r: Result<seq<Entry>>)
    requires -1 <= k < |es|
    ensures r == Err(NotFound) <==> k == -1
    ensures r == Err(IsADirectory) <==> k != -1 && es[k].isDir
    ensures r == Err(AlreadyExists) <==> k != -1 && !es[k].isDir && exists i :: 0 <= i < |es| && es[i].name == newName
    ensures r.Ok? <==> k != -1 && !es[k].isDir && !(exists i :: 0 <= i < |es| && es[i].name == newName)
    ensures r.Ok? ==> |r.value| == |es| && r.value[k] == es[k].(name := newName)
    ensures r.Ok? ==> forall j :: 0 <= j < |es| && j != k ==> r.value[j] == es[j]
  {
    if k == -1 then Err(NotFound)
    else if es[k].isDir then Err(IsADirectory)
    else if HasClash(es, newName, AnyExact) then Err(AlreadyExists)
    else Ok(es[k := es[k].(name := newName)])
  }

  /** Renaming an entry to its own name is refused: the entry collides with itself. */
  lemma RenameToSameNameFails(es: seq<Entry>, k: int)
    requires 0 <= k < |es| && !es[k].isDir
    ensures RenameEntry(es, k, es[k].name) == Err(AlreadyExists)
  {
  }

  /** A successful rename keeps exact uniqueness. */
  lemma RenameKeepsUniqueExact(es: seq<Entry>, k: int, newName: string)
    requires -1 <= k < |es|
    requires UniqueExact(es)
    requires RenameEntry(es, k, newName).Ok?
    ensures UniqueExact(RenameEntry(es, k, newName).value)
  {
    var r := RenameEntry(es, k, newName).value;
    forall i, j | 0 <= i < j < |r|
      ensures r[i].name != r[j].name
    {
      if i == k {
        assert r[j] == es[j];
      } else if j == k {
        assert r[i] == es[i];
      } else {
        assert r[i] == es[i] && r[j] == es[j];
      }
    }
  }

  /** Renaming back restores the list, when names were exactly unique. */
  lemma RenameRoundTrip(es: seq<Entry>, k: int, newName: string)
    requires -1 <= k < |es|
    requires UniqueExact(es)
    requires RenameEntry(es, k, newName).Ok?
    ensures RenameEntry(RenameEntry(es, k, newName).value, k, es[k].name) == Ok(es)
  {
    var r := RenameEntry(es, k, newName).value;
    var original := es[k].name;
    forall i | 0 <= i < |r|
      ensures r[i].name != original
    {
      if i != k {
        assert r[i] == es[i];
        assert i < k ==> es[i].name != es[k].name;
        assert k < i ==> es[k].name != es[i].name;
      } else {
        assert original != newName;
      }
    }
    assert !HasClash(r, original, AnyExact);
    assert r[k := r[k].(name := original)] == es;
  }

  /** As written, `rename` compares names exactly, so it can give a file a
      name that an existing sibling already has in another letter case. */
  lemma RenameCanClashIgnoringCase()
    ensures var es := [NewFile("A.TXT"), NewFile("B.TXT")];
      && UniqueIgnoringCase(es)
      && RenameEntry(es, 1, "a.txt").Ok?
      && !UniqueIgnoringCase(RenameEntry(es, 1, "a.txt").value)
  {
    var es := [NewFile("A.TXT"), NewFile("B.TXT")];
    assert Lower("A.TXT") == "a.txt";
    assert Lower("B.TXT") == "b.txt";
    assert !HasClash(es, "a.txt", AnyExact);
    var r := RenameEntry(es, 1, "a.txt").value;
    assert r[0] == es[0] && r[1].name == "a.txt";
    assert Lower("a.txt") == "a.txt";
    assert SameIgnoringCase(r[0].name, r[1].name);
  }

  /** `erase(begin() + k)`: entry `k` is gone and the others keep their order. */
  function RemoveAt(es: seq<Entry>, k: nat): (r: seq<Entry>)
    requires k < |es|
    ensures |r| == |es| - 1
    ensures forall j :: 0 <= j < k ==> r[j] == es[j]
    ensures forall j :: k <= j < |r| ==> r[j] == es[j + 1]
  {
    es[..k] + es[k + 1..]
  }

  /** Removing an entry keeps the remaining names unique ignoring case. */
  lemma RemoveAtKeepsUnique(es: seq<Entry>, k: nat)
    requires k < |es| && UniqueIgnoringCase(es)
    ensures UniqueIgnoringCase(RemoveAt(es, k))
  {
    var r := RemoveAt(es, k);
    forall i, j | 0 <= i < j < |r|
      ensures !SameIgnoringCase(r[i].name, r[j].name)
    {
      var i' := if i < k then i else i + 1;
      var j' := if j < k then j else j + 1;
      assert r[i] == es[i'] && r[j] == es[j'];
    }
  }

  /** One directory search that meets `SearchOk`: the first entry whose
      name matches ignoring case, or -1. The model does not depend on it;
      the commands take the search as a parameter. */
  function FirstMatch(es: seq<Entry>, name: string): (r: int)
    ensures -1 <= r < |es|
    ensures r == -1 <==> !exists i :: 0 <= i < |es| && SameIgnoringCase(es[i].name, name)
    ensures r != -1 ==> SameIgnoringCase(es[r].name, name)
    ensures r != -1 ==> forall j :: 0 <= j < r ==> !SameIgnoringCase(es[j].name, name)
  {
    if |es| == 0 then -1
    else if SameIgnoringCase(es[0].name, name) then 0
    else
      var k := FirstMatch(es[1..], name);
      if k == -1 then -1 else k + 1
  }
}

=== FILE: filename.dfy ===
/** The shell's 8.3 file-name validator (`isValidFileName`). */
module FileName {
  import opened Outcome
  import opened Ascii

  /** Characters a name may never contain. */
  const Reserved: set<char> := {'/', '\\', '*', '?', '"', '<', '>', '|'}

  /** Longest name the validator admits, with or without a dot. */
  const MaxNameLength: nat := 11
  const MaxBaseLength: nat := 8
  const MaxExtensionLength: nat := 3

  /** `d` is the position of the last dot of `name`. */
  predicate IsLastDot(name: string, d: int) {
    0 <= d < |name| && name[d] == '.' && forall j :: d < j < |name| ==> name[j] != '.'
  }

  /** The naming rule stated declaratively: 1 to 11 characters, none reserved,
      no leading dot, and when there is a dot, 1 to 8 characters before the
      last dot and 1 to 3 after it. */
  ghost predicate Is83Name(name: string) {
    && 1 <= |name| <= MaxNameLength
    && (forall i :: 0 <= i < |name| ==> name[i] !in Reserved)
    && name[0] != '.'
    && (forall d :: IsLastDot(name, d) ==>
          1 <= d <= MaxBaseLength && 1 <= |name| - d - 1 <= MaxExtensionLength)
  }

  /** A name has at most one last dot. */
  lemma LastDotIsUnique(name: string, d: int)
    requires IsLastDot(name, d)
    ensures forall e :: IsLastDot(name, e) ==> e == d
  {
  }

  predicate HasReservedChar(name: string) {
    exists i :: 0 <= i < |name| && name[i] in Reserved
  }

  /** The validator, branch for branch: length, reserved characters, leading
      dot, then the base/extension split at the last dot. */
  function IsValidFileName(name: string): (r: bool)
    ensures |name| == 0 || |name| > MaxNameLength ==> !r
    ensures HasReservedChar(name) ==> !r
    ensures 0 < |name| && name[0] == '.' ==> !r
    ensures r <==> Is83Name(name)
  {
    if |name| == 0 || |name| > MaxNameLength then false
    else if HasReservedChar(name) then false
    else if name[0] == '.' then false
    else
      match LastIndexIn(name, {'.'})
      case Some(d) =>
        LastDotIsUnique(name, d);
        var base := name[..d];
        var ext := name[d + 1..];
        !(|base| == 0 || |ext| == 0 || |base| > MaxBaseLength || |ext| > MaxExtensionLength)
      case None =>
        // dead in the source as well: the length was bounded above already
        !(|name| > MaxNameLength)
  }

  /** A name without any dot is accepted exactly when it has 1 to 11
      characters, none reserved. */
  lemma DotFreeName(name: string)
    requires forall i :: 0 <= i < |name| ==> name[i] != '.'
    ensures IsValidFileName(name) <==> 1 <= |name| <= MaxNameLength && !HasReservedChar(name)
  {
  }

  /** A name with a dot that passes the first three rules is accepted exactly
      when the last dot leaves 1 to 8 characters before it and 1 to 3 after. */
  lemma DottedName(name: string, d: nat)
    requires IsLastDot(name, d)
    requires 1 <= |name| <= MaxNameLength && !HasReservedChar(name) && name[0] != '.'
    ensures IsValidFileName(name) <==> 1 <= |name[..d]| <= MaxBaseLength && 1 <= |name[d + 1..]| <= MaxExtensionLength
  {
  }
}

=== FILE: outcome.dfy ===
/** Optional values, results and the error conditions the shell reports. */
module Outcome {

  datatype Option<+T> = None | Some(value: T)

  /** Each constructor stands for one family of error messages of the shell. */
  datatype Error =
    | InvalidSyntax      // wrong number of arguments, empty argument
    | InvalidName        // the 8.3 validator or the name cleaner refused the name
    | PathEmpty          // a path with no components
    | PathNotAllowed     // a rename target that carries a path
    | DriveNotFound      // an absolute path whose drive is not the root's
    | NotFound           // no entry of that name
    | NotADirectory      // the entry is a file where a directory is needed
    | IsADirectory       // the entry is a directory where a file is needed
    | Inaccessible       // a directory entry without a loaded subdirectory
    | AlreadyAtRoot      // `..` at the root
    | AlreadyExists      // a sibling of that name exists
    | NotEmpty           // `rd` of a directory that still has entries
    | NoSpace            // the cluster allocator had nothing left
    | Skipped            // the user declined the confirmation prompt

  datatype Result<+T> = Ok(value: T) | Err(error: Error)
}

=== FILE: paths.dfy ===
/** Path handling of the shell: the split of a path at its last separator,
    and the `getline`-based split of a path into directory components. */
module Paths {
  import opened Outcome
  import opened Ascii

  const Backslash: char := '\\'
  const Slash: char := '/'

  /** Both characters the shell accepts as a path separator. */
  const Separators: set<char> := {Slash, Backslash}

  predicate HasSeparator(s: string) {
    exists i :: 0 <= i < |s| && s[i] in Separators
  }

  /** A path cut at its last separator: everything before it, everything after it. */
  datatype Split = Split(parent: string, leaf: string)

  /** `find_last_of("/\\")` followed by the two `substr` calls, as in md, rd,
      echo, write, type and copy. Without a separator the whole input is the
      leaf and the parent is empty (which those commands read as "the current
      directory"). */
  function SplitAtLastSeparator(s: string): (r: Split)
    ensures !HasSeparator(s) ==> r.parent == [] && r.leaf == s
    ensures HasSeparator(s) ==>
              && |r.parent| < |s|
              && s[|r.parent|] in Separators
              && r.parent + [s[|r.parent|]] + r.leaf == s
    ensures forall i :: 0 <= i < |r.leaf| ==> r.leaf[i] !in Separators
  {
    match LastIndexIn(s, Separators)
    case None => Split([], s)
    case Some(i) =>
      assert s[..i] + [s[i]] + s[i + 1..] == s;
      Split(s[..i], s[i + 1..])
  }

  /** The pieces between consecutive occurrences of `sep`, empty pieces
      included, ending with the piece after the last separator even when it
      is empty. Repeated `getline(ss, piece, sep)` reads the same list except
      that it omits that final piece when it is empty (`"a\"` gives `a`
      alone, `""` gives nothing); the shell drops every empty piece, so
      `Tokens` is the same for both. */
  function Pieces(s: string, sep: char): (r: seq<string>)
    ensures |r| >= 1
  {
    if |s| == 0 then [""]
    else
      var rest := Pieces(s[1..], sep);
      if s[0] == sep then [""] + rest
      else [[s[0]] + rest[0]] + rest[1..]
  }

  /** Glue pieces back together with one `sep` between neighbours. */
  function JoinWith(ps: seq<string>, sep: char): string
    requires |ps| >= 1
  {
    if |ps| == 1 then ps[0] else ps[0] + [sep] + JoinWith(ps[1..], sep)
  }

  /** Splitting then joining gives the input back. */
  lemma {:induction false} JoinPieces(s: string, sep: char)
    ensures JoinWith(Pieces(s, sep), sep) == s
  {
    if |s| > 0 {
      var rest := Pieces(s[1..], sep);
      JoinPieces(s[1..], sep);
      if s[0] == sep {
        assert JoinWith([""] + rest, sep) == "" + [sep] + JoinWith(rest, sep);
      } else if |rest| == 1 {
        assert JoinWith(Pieces(s, sep), sep) == [s[0]] + rest[0];
      } else {
        var ps := Pieces(s, sep);
        assert ps[1..] == rest[1..];
        assert JoinWith(rest, sep) == rest[0] + [sep] + JoinWith(rest[1..], sep);
        assert JoinWith(ps, sep) == ([s[0]] + rest[0]) + [sep] + JoinWith(rest[1..], sep);
      }
    }
  }

  /** A piece without the separator splits into itself. */
  lemma {:induction false} PiecesOfWord(w: string, sep: char)
    requires sep !in w
    ensures Pieces(w, sep) == [w]
  {
    if |w| > 0 {
      PiecesOfWord(w[1..], sep);
      assert [w[0]] + w[1..] == w;
    }
  }

  /** One unfolding of `Pieces` on a string with a known first character. */
  lemma PiecesCons(c: char, t: string, sep: char)
    ensures Pieces([c] + t, sep) ==
              if c == sep then [""] + Pieces(t, sep)
              else [[c] + Pieces(t, sep)[0]] + Pieces(t, sep)[1..]
  {
    assert ([c] + t)[1..] == t;
  }

  /** No piece holds the separator. */
  lemma {:induction false} PiecesSeparatorFree(s: string, sep: char)
    ensures forall k :: 0 <= k < |Pieces(s, sep)| ==> sep !in Pieces(s, sep)[k]
  {
    if |s| > 0 {
      PiecesSeparatorFree(s[1..], sep);
      var rest := Pieces(s[1..], sep);
      var ps := Pieces(s, sep);
      forall k | 0 <= k < |ps|
        ensures sep !in ps[k]
      {
        if s[0] == sep {
          if k > 0 { assert ps[k] == rest[k - 1]; }
        } else if k > 0 {
          assert ps[k] == rest[k];
        }
      }
    }
  }

  /** Splitting distributes over a separator. */
  lemma {:induction false} PiecesOfJoin2(a: string, sep: char, b: string)
    ensures Pieces(a + [sep] + b, sep) == Pieces(a, sep) + Pieces(b, sep)
    decreases |a|
  {
    if |a| == 0 {
      assert a + [sep] + b == [sep] + b;
      PiecesCons(sep, b, sep);
    } else {
      var t := a[1..] + [sep] + b;
      assert a + [sep] + b == [a[0]] + t;
      assert a == [a[0]] + a[1..];
      PiecesOfJoin2(a[1..], sep, b);
      if a[0] == sep {
        PiecesOfJoin2Sep(a[0], a[1..], t, sep, Pieces(b, sep));
      } else {
        PiecesOfJoin2Other(a[0], a[1..], t, sep, Pieces(b, sep));
      }
    }
  }

  lemma PiecesOfJoin2Sep(c: char, a: string, t: string, sep: char, pb: seq<string>)
    requires c == sep
    requires Pieces(t, sep) == Pieces(a, sep) + pb
    ensures Pieces([c] + t, sep) == Pieces([c] + a, sep) + pb
  {
    PiecesCons(c, t, sep);
    PiecesCons(c, a, sep);
  }

  lemma PiecesOfJoin2Other(c: char, a: string, t: string, sep: char, pb: seq<string>)
    requires c != sep
    requires Pieces(t, sep) == Pieces(a, sep) + pb
    ensures Pieces([c] + t, sep) == Pieces([c] + a, sep) + pb
  {
    PiecesCons(c, t, sep);
    PiecesCons(c, a, sep);
    ExtendFirstPiece(c, Pieces(a, sep), pb);
  }

  /** Extending the first piece commutes with appending more pieces. */
  lemma ExtendFirstPiece(c: char, pa: seq<string>, pb: seq<string>)
    requires |pa| >= 1
    ensures [[c] + (pa + pb)[0]] + (pa + pb)[1..] == ([[c] + pa[0]] + pa[1..]) + pb
  {
    assert (pa + pb)[0] == pa[0];
    assert (pa + pb)[1..] == pa[1..] + pb;
  }

  /** Joining then splitting gives the pieces back, when none of them holds
      the separator. */
  lemma {:induction false} PiecesOfJoin(ps: seq<string>, sep: char)
    requires |ps| >= 1
    requires forall k :: 0 <= k < |ps| ==> sep !in ps[k]
    ensures Pieces(JoinWith(ps, sep), sep) == ps
  {
    if |ps| == 1 {
      PiecesOfWord(ps[0], sep);
    } else {
      PiecesOfJoin(ps[1..], sep);
      PiecesOfWord(ps[0], sep);
      PiecesOfJoin2(ps[0], sep, JoinWith(ps[1..], sep));
      assert [ps[0]] + ps[1..] == ps;
    }
  }

  /** Keep the non-empty pieces, in order. */
  function NonEmpty(ps: seq<string>): (r: seq<string>)
    ensures |r| <= |ps|
    ensures forall k :: 0 <= k < |r| ==> r[k] != [] && r[k] in ps
  {
    if |ps| == 0 then []
    else (if ps[0] == [] then [] else [ps[0]]) + NonEmpty(ps[1..])
  }

  lemma {:induction false} NonEmptyAppend(ps: seq<string>, qs: seq<string>)
    ensures NonEmpty(ps + qs) == NonEmpty(ps) + NonEmpty(qs)
  {
    if |ps| > 0 {
      assert (ps + qs)[1..] == ps[1..] + qs;
      NonEmptyAppend(ps[1..], qs);
    } else {
      assert ps + qs == qs;
    }
  }

  /** The component list of a path: the pieces between separators, with the
      empty ones dropped (`if (!token.empty()) push_back`). */
  function Tokens(s: string, sep: char): (r: seq<string>)
    ensures forall k :: 0 <= k < |r| ==> r[k] != [] && sep !in r[k]
  {
    PiecesSeparatorFree(s, sep);
    NonEmpty(Pieces(s, sep))
  }

  /** Tokenising distributes over a separator: runs of separators and
      separators at either end contribute nothing. With `Tokens("") == []`
      and `TokensOfWord` this pins `Tokens` down completely. */
  lemma TokensOfJoin(a: string, sep: char, b: string)
    ensures Tokens(a + [sep] + b, sep) == Tokens(a, sep) + Tokens(b, sep)
  {
    PiecesOfJoin2(a, sep, b);
    NonEmptyAppend(Pieces(a, sep), Pieces(b, sep));
  }

  /** A doubled separator splits like a single one. */
  lemma TokensOfDoubleSeparator(a: string, sep: char, b: string)
    ensures Tokens(a + [sep, sep] + b, sep) == Tokens(a + [sep] + b, sep)
  {
    var rest := [sep] + b;
    assert a + [sep, sep] + b == a + [sep] + rest;
    assert rest == [] + [sep] + b;
    calc {
      Tokens(a + [sep] + rest, sep);
      { TokensOfJoin(a, sep, rest); }
      Tokens(a, sep) + Tokens(rest, sep);
      { TokensOfJoin([], sep, b); assert Tokens([], sep) == []; }
      Tokens(a, sep) + Tokens(b, sep);
      { TokensOfJoin(a, sep, b); }
      Tokens(a + [sep] + b, sep);
    }
  }

  /** A string of separators alone has no components. */
  lemma {:induction false} TokensOfSeparators(s: string, sep: char)
    requires forall i :: 0 <= i < |s| ==> s[i] == sep
    ensures Tokens(s, sep) == []
    decreases |s|
  {
    if |s| > 0 {
      TokensOfSeparators(s[1..], sep);
      assert s == [] + [sep] + s[1..];
      TokensOfJoin([], sep, s[1..]);
      assert Tokens([], sep) == [];
    }
  }

  /** A non-empty word without the separator is its own only component. */
  lemma TokensOfWord(w: string, sep: char)
    requires w != [] && sep !in w
    ensures Tokens(w, sep) == [w]
  {
    PiecesOfWord(w, sep);
  }

  /** `std::replace(path, '/', '\\')`. */
  function NormalizeSlashes(s: string): (r: string)
    ensures |r| == |s|
    ensures Slash !in r
    ensures forall i :: 0 <= i < |s| && s[i] != Slash ==> r[i] == s[i]
    ensures forall i :: 0 <= i < |s| && s[i] == Slash ==> r[i] == Backslash
  {
    seq(|s|, i requires 0 <= i < |s| => if s[i] == Slash then Backslash else s[i])
  }

  /** The directory components `MoveToDir` walks: slashes become backslashes,
      then the path is cut at backslashes and empty pieces are dropped. */
  function DirComponents(path: string): (r: seq<string>)
    ensures r == Tokens(NormalizeSlashes(path), Backslash)
    ensures forall k :: 0 <= k < |r| ==> r[k] != [] && Slash !in r[k] && Backslash !in r[k]
  {
    var n := NormalizeSlashes(path);
    var r := Tokens(n, Backslash);
    assert forall k :: 0 <= k < |r| ==> r[k] in Pieces(n, Backslash);
    PiecesContent(n, Backslash);
    r
  }

  /** A path written as components joined by single backslashes splits back
      into exactly those components, the empty ones dropped; so the component
      list is determined by the path and by nothing else. */
  lemma DirComponentsOfJoin(ps: seq<string>)
    requires |ps| >= 1
    requires forall k :: 0 <= k < |ps| ==> Slash !in ps[k] && Backslash !in ps[k]
    ensures DirComponents(JoinWith(ps, Backslash)) == NonEmpty(ps)
  {
    var s := JoinWith(ps, Backslash);
    JoinWithContent(ps, Backslash);
    forall i | 0 <= i < |s|
      ensures s[i] != Slash
    {
      assert s[i] in s;
    }
    assert NormalizeSlashes(s) == s;
    PiecesOfJoin(ps, Backslash);
  }

  /** Dropping empty pieces from a list without any changes nothing. */
  lemma {:induction false} NonEmptyOfNonEmpty(ps: seq<string>)
    requires forall k :: 0 <= k < |ps| ==> ps[k] != []
    ensures NonEmpty(ps) == ps
  {
    if |ps| > 0 {
      NonEmptyOfNonEmpty(ps[1..]);
      assert [ps[0]] + ps[1..] == ps;
    }
  }

  /** A join holds the separator and the pieces' characters only. */
  lemma {:induction false} JoinWithContent(ps: seq<string>, sep: char)
    requires |ps| >= 1
    ensures forall c :: c in JoinWith(ps, sep) ==> c == sep || exists k :: 0 <= k < |ps| && c in ps[k]
  {
    if |ps| > 1 {
      JoinWithContent(ps[1..], sep);
      forall c | c in JoinWith(ps, sep)
        ensures c == sep || exists k :: 0 <= k < |ps| && c in ps[k]
      {
        if c in ps[0] {
        } else if c != sep {
          assert c in JoinWith(ps[1..], sep);
          var k :| 0 <= k < |ps[1..]| && c in ps[1..][k];
          assert c in ps[k + 1];
        }
      }
    }
  }

  /** Every piece is made of characters of the input. */
  lemma {:induction false} PiecesContent(s: string, sep: char)
    ensures forall k, c :: 0 <= k < |Pieces(s, sep)| && c in Pieces(s, sep)[k] ==> c in s
  {
    if |s| > 0 {
      PiecesContent(s[1..], sep);
      var rest := Pieces(s[1..], sep);
      var ps := Pieces(s, sep);
      forall k, c | 0 <= k < |ps| && c in ps[k]
        ensures c in s
      {
        assert s == [s[0]] + s[1..];
        if s[0] == sep {
          assert ps[k] == rest[k - 1];
        } else if k == 0 {
          assert c == s[0] || c in rest[0];
        } else {
          assert ps[k] == rest[k];
        }
      }
    }
  }
}

=== FILE: tree.dfy ===
/** The directory tree the shell navigates, as an arena of nodes indexed by
    handle, and the two navigation routines: `cd` and `MoveToDir`. */
module Tree {
  import opened Outcome
  import opened Ascii
  import opened Paths
  import opened Entries

  /** One loaded directory: its name, its parent (absent only at the root)
      and its ordered entries. */
  datatype Node = Node(name: string, parent: Option<NodeId>, entries: seq<Entry>)

  datatype FileSystem = FileSystem(nodes: map<NodeId, Node>, root: NodeId)

  /** A directory entry leads to a loaded node whose parent is the directory
      holding the entry. */
  ghost predicate LinksBack(fs: FileSystem, id: NodeId, e: Entry) {
    e.child.Some? && e.child.value in fs.nodes && fs.nodes[e.child.value].parent == Some(id)
  }

  /** The `while (dir->parent != nullptr) dir = dir->parent;` loop of `cd`
      and `MoveToDir`, allowed at most `fuel` steps: the parentless node it
      stops at, or `None` when the chain leaves the loaded nodes or is longer. */
  function RootOf(fs: FileSystem, id: NodeId, fuel: nat): (r: Option<NodeId>)
    ensures r.Some? ==> r.value in fs.nodes && fs.nodes[r.value].parent.None?
    decreases fuel
  {
    if id !in fs.nodes then None
    else match fs.nodes[id].parent
      case None => Some(id)
      case Some(p) => if fuel == 0 then None else RootOf(fs, p, fuel - 1)
  }

  /** The walk up from `id` ends within as many steps as there are nodes. */
  predicate ReachesRoot(fs: FileSystem, id: NodeId) {
    RootOf(fs, id, |fs.nodes|).Some?
  }

  /** The in-memory tree invariant: the root is loaded and is the only node
      without a parent, parents are loaded, the parent links contain no
      cycle (from every node the walk up ends within as many steps as there
      are nodes), and every directory entry leads to a loaded node that
      names the holder as its parent. */
  ghost predicate WellFormed(fs: FileSystem) {
    && fs.root in fs.nodes
    && (forall id :: id in fs.nodes ==> (fs.nodes[id].parent.None? <==> id == fs.root))
    && (forall id :: id in fs.nodes && fs.nodes[id].parent.Some? ==> fs.nodes[id].parent.value in fs.nodes)
    && (forall id :: id in fs.nodes ==> ReachesRoot(fs, id))
    && (forall id, i :: id in fs.nodes && 0 <= i < |fs.nodes[id].entries| && fs.nodes[id].entries[i].isDir ==>
          LinksBack(fs, id, fs.nodes[id].entries[i]))
  }

  /** In a well-formed tree the walk up from any node ends at the root. */
  lemma RootOfIsRoot(fs: FileSystem, id: NodeId)
    requires WellFormed(fs) && id in fs.nodes
    ensures RootOf(fs, id, |fs.nodes|) == Some(fs.root)
  {
  }

  /** Two parent links pointing at each other satisfy every other conjunct
      of the invariant but not the acyclicity one. */
  lemma ParentCycleIsNotWellFormed()
    ensures var fs := FileSystem(map[0 := Node("C:", None, []), 1 := Node("A", Some(2), []), 2 := Node("B", Some(1), [])], 0);
      !WellFormed(fs)
  {
    var fs := FileSystem(map[0 := Node("C:", None, []), 1 := Node("A", Some(2), []), 2 := Node("B", Some(1), [])], 0);
    assert |fs.nodes| == 3 by { assert fs.nodes.Keys == {0, 1, 2}; }
    assert RootOf(fs, 1, 3) == None by {
      assert RootOf(fs, 1, 1) == RootOf(fs, 2, 0) == None;
      assert RootOf(fs, 2, 2) == RootOf(fs, 1, 1);
      assert RootOf(fs, 1, 3) == RootOf(fs, 2, 2);
    }
  }

  /** The walk up reads only the parent links of the nodes it visits. */
  lemma {:induction false} RootOfSameParents(fs: FileSystem, fs2: FileSystem, id: NodeId, fuel: nat)
    requires forall n :: n in fs.nodes ==> n in fs2.nodes && fs2.nodes[n].parent == fs.nodes[n].parent
    requires RootOf(fs, id, fuel).Some?
    ensures RootOf(fs2, id, fuel) == RootOf(fs, id, fuel)
    decreases fuel
  {
    match fs.nodes[id].parent
    case None =>
    case Some(p) => RootOfSameParents(fs, fs2, p, fuel - 1);
  }

  /** Changing anything but the parent links keeps every walk up finite. */
  lemma SameParentsReachRoot(fs: FileSystem, r: FileSystem)
    requires forall n :: n in fs.nodes ==> ReachesRoot(fs, n)
    requires r.nodes.Keys == fs.nodes.Keys
    requires forall n :: n in fs.nodes ==> r.nodes[n].parent == fs.nodes[n].parent
    ensures forall n :: n in r.nodes ==> ReachesRoot(r, n)
  {
    assert |r.nodes| == |fs.nodes| by { assert |r.nodes.Keys| == |fs.nodes.Keys|; }
    forall n | n in r.nodes
      ensures ReachesRoot(r, n)
    {
      assert ReachesRoot(fs, n);
      RootOfSameParents(fs, r, n, |fs.nodes|);
    }
  }

  /** Adding a node whose parent is loaded keeps every walk up finite. */
  lemma GrowReachesRoot(fs: FileSystem, newNode: NodeId, node: Node)
    requires forall n :: n in fs.nodes ==> ReachesRoot(fs, n)
    requires newNode !in fs.nodes && node.parent.Some? && node.parent.value in fs.nodes
    ensures var grown := fs.(nodes := fs.nodes[newNode := node]);
      forall n :: n in grown.nodes ==> ReachesRoot(grown, n)
  {
    var grown := fs.(nodes := fs.nodes[newNode := node]);
    var size := |fs.nodes|;
    assert |grown.nodes| == size + 1;
    forall n | n in grown.nodes
      ensures ReachesRoot(grown, n)
    {
      if n == newNode {
        assert ReachesRoot(fs, node.parent.value);
        RootOfSameParents(fs, grown, node.parent.value, size);
      } else {
        assert ReachesRoot(fs, n);
        RootOfSameParents(fs, grown, n, size);
        RootOfMoreFuel(grown, n, size);
      }
    }
  }

  /** A walk up that ends within `fuel` steps ends within more. */
  lemma {:induction false} RootOfMoreFuel(fs: FileSystem, id: NodeId, fuel: nat)
    requires RootOf(fs, id, fuel).Some?
    ensures RootOf(fs, id, fuel + 1) == RootOf(fs, id, fuel)
    decreases fuel
  {
    match fs.nodes[id].parent
    case None =>
    case Some(p) => RootOfMoreFuel(fs, p, fuel - 1);
  }

  /** `Directory::searchDirectory`, whose source is not part of this model:
      given the entries and a name it returns -1 or an index into the entries. */
  type Searcher = (seq<Entry>, string) -> int

  ghost predicate SearchOk(search: Searcher) {
    forall es, name :: -1 <= search(es, name) < |es|
  }

  /** The case-insensitive first match is one admissible search. */
  lemma FirstMatchIsSearch()
    ensures SearchOk((es, name) => FirstMatch(es, name))
  {
  }

  // ---------------------------------------------------------------- cd

  /** One component of a `cd` path: `.` stays, `..` goes to the parent and
      fails at the root, anything else must name a directory entry. */
  function CdStep(fs: FileSystem, search: Searcher, at: NodeId, comp: string): (r: Result<NodeId>)
    requires WellFormed(fs) && SearchOk(search) && at in fs.nodes
    ensures r.Ok? ==> r.value in fs.nodes
    ensures comp == "." ==> r == Ok(at)
    ensures comp == ".." ==> (r == Err(AlreadyAtRoot) <==> at == fs.root)
    ensures comp == ".." && r.Ok? ==> fs.nodes[at].parent == Some(r.value)
    ensures comp == ".." && at != fs.root ==>
              fs.nodes[at].parent.Some? && r == Ok(fs.nodes[at].parent.value)
    ensures comp != "." && comp != ".." ==>
              var k := search(fs.nodes[at].entries, comp);
              && (k == -1 ==> r == Err(NotFound))
              && (k != -1 && !fs.nodes[at].entries[k].isDir ==> r == Err(NotADirectory))
              && (k != -1 && fs.nodes[at].entries[k].isDir ==>
                    fs.nodes[at].entries[k].child.Some? && r == Ok(fs.nodes[at].entries[k].child.value))
  {
    if comp == "." then Ok(at)
    else if comp == ".." then
      match fs.nodes[at].parent
      case None => Err(AlreadyAtRoot)
      case Some(p) => Ok(p)
    else
      var entries := fs.nodes[at].entries;
      var k := search(entries, comp);
      if k == -1 then Err(NotFound)
      else if !entries[k].isDir then Err(NotADirectory)
      else Ok(entries[k].child.value)
  }

  /** The component loop of `cd`: stops at the first failing component. */
  function Walk(fs: FileSystem, search: Searcher, at: NodeId, comps: seq<string>): (r: Result<NodeId>)
    requires WellFormed(fs) && SearchOk(search) && at in fs.nodes
    ensures r.Ok? ==> r.value in fs.nodes
    decreases |comps|
  {
    if |comps| == 0 then Ok(at)
    else
      match CdStep(fs, search, at, comps[0])
      case Err(e) => Err(e)
      case Ok(next) => Walk(fs, search, next, comps[1..])
  }

  /** Walking a concatenation is walking the first part, then the second
      from wherever the first part ended. */
  lemma {:induction false} WalkAppend(fs: FileSystem, search: Searcher, at: NodeId, a: seq<string>, b: seq<string>)
    requires WellFormed(fs) && SearchOk(search) && at in fs.nodes
    ensures Walk(fs, search, at, a + b) ==
              match Walk(fs, search, at, a)
              case Err(e) => Err(e)
              case Ok(mid) => Walk(fs, search, mid, b)
    decreases |a|
  {
    if |a| == 0 {
      assert a + b == b;
    } else {
      assert (a + b)[0] == a[0];
      assert (a + b)[1..] == a[1..] + b;
      match CdStep(fs, search, at, a[0])
      case Err(e) =>
      case Ok(next) => WalkAppend(fs, search, next, a[1..], b);
    }
  }

  /** A path made only of `.` components leaves the directory where it is. */
  lemma {:induction false} WalkDots(fs: FileSystem, search: Searcher, at: NodeId, comps: seq<string>)
    requires WellFormed(fs) && SearchOk(search) && at in fs.nodes
    requires forall i :: 0 <= i < |comps| ==> comps[i] == "."
    ensures Walk(fs, search, at, comps) == Ok(at)
    decreases |comps|
  {
    if |comps| > 0 {
      WalkDots(fs, search, at, comps[1..]);
    }
  }

  /** Going down into a subdirectory and then `..` comes back. */
  lemma ChildThenParent(fs: FileSystem, search: Searcher, at: NodeId, name: string)
    requires WellFormed(fs) && SearchOk(search) && at in fs.nodes
    requires name != "." && name != ".."
    requires CdStep(fs, search, at, name).Ok?
    ensures Walk(fs, search, at, [name, ".."]) == Ok(at)
  {
    var child := CdStep(fs, search, at, name).value;
    assert [name, ".."][1..] == [".."];
    assert Walk(fs, search, child, [".."]) == CdStep(fs, search, child, "..");
  }

  /** `C:\...`: a drive letter, a colon and a backslash. */
  predicate IsAbsolute(path: string) {
    |path| >= 3 && IsAlpha(path[0]) && path[1] == ':' && path[2] == Backslash
  }

  /** `name.substr(0, 2)`: at most the first two characters. */
  function DriveOf(name: string): (r: string)
    ensures |r| <= 2 && |r| <= |name| && r == name[..|r|]
    ensures |name| >= 2 ==> |r| == 2
    ensures |name| < 2 ==> r == name
  {
    if |name| <= 2 then name else name[..2]
  }

  /** `handleCd`: the new current directory, or the error that leaves the
      current directory where it is. The empty path, `.` and `..` are
      handled before the general case; an absolute path starts from the
      root (the source walks up the parent links, which in a well-formed
      tree ends at the root, `RootOfIsRoot`) after checking its drive
      against the root's. */
  function Cd(fs: FileSystem, search: Searcher, cur: NodeId, path: string): (r: Result<NodeId>)
    requires WellFormed(fs) && SearchOk(search) && cur in fs.nodes
    ensures r.Ok? ==> r.value in fs.nodes
    ensures IsAbsolute(path) && Upper(DriveOf(fs.nodes[fs.root].name)) != Upper(path[..2]) ==> r == Err(DriveNotFound)
    ensures IsAbsolute(path) && Upper(DriveOf(fs.nodes[fs.root].name)) == Upper(path[..2]) ==>
              r == Walk(fs, search, fs.root, Tokens(path[3..], Backslash))
    ensures !IsAbsolute(path) ==> r == Walk(fs, search, cur, Tokens(path, Backslash))
  {
    SpecialPathsAreComponents();
    if path == "" then Ok(cur)
    else if path == "." then
      assert Walk(fs, search, cur, ["."]) == Walk(fs, search, cur, []);
      Ok(cur)
    else if path == ".." then
      match fs.nodes[cur].parent
      case Some(p) => Ok(p)
      case None => Err(AlreadyAtRoot)
    else if IsAbsolute(path) then
      RootOfIsRoot(fs, cur);
      var top := RootOf(fs, cur, |fs.nodes|).value;
      if Upper(DriveOf(fs.nodes[top].name)) != Upper(path[..2]) then Err(DriveNotFound)
      else Walk(fs, search, top, Tokens(path[3..], Backslash))
    else
      Walk(fs, search, cur, Tokens(path, Backslash))
  }

  /** The early returns of `handleCd` for the empty path, `.` and `..`
      agree with splitting those paths into components. */
  lemma SpecialPathsAreComponents()
    ensures Tokens("", Backslash) == []
    ensures Tokens(".", Backslash) == ["."]
    ensures Tokens("..", Backslash) == [".."]
  {
    TokensOfWord(".", Backslash);
    TokensOfWord("..", Backslash);
  }

  /** The current directory after `cd`: unchanged on any error. */
  function CurrentAfterCd(fs: FileSystem, search: Searcher, cur: NodeId, path: string): (r: NodeId)
    requires WellFormed(fs) && SearchOk(search) && cur in fs.nodes
    ensures r in fs.nodes
    ensures Cd(fs, search, cur, path).Err? ==> r == cur
    ensures Cd(fs, search, cur, path).Ok? ==> r == Cd(fs, search, cur, path).value
  {
    match Cd(fs, search, cur, path)
    case Ok(next) => next
    case Err(_) => cur
  }

  /** A relative path whose first component the search does not find fails
      with "cannot find" whatever follows, and the current directory stays. */
  lemma CdMissingFirstComponent(fs: FileSystem, search: Searcher, cur: NodeId, name: string, rest: string)
    requires WellFormed(fs) && SearchOk(search) && cur in fs.nodes
    requires name != [] && Backslash !in name && name != "." && name != ".."
    requires search(fs.nodes[cur].entries, name) == -1
    requires !IsAbsolute(name + [Backslash] + rest)
    ensures Cd(fs, search, cur, name + [Backslash] + rest) == Err(NotFound)
    ensures CurrentAfterCd(fs, search, cur, name + [Backslash] + rest) == cur
  {
    var path := name + [Backslash] + rest;
    assert path[|name|] == Backslash;
    assert path != "." && path != ".." && path != "";
    TokensOfJoin(name, Backslash, rest);
    TokensOfWord(name, Backslash);
    var comps := Tokens(path, Backslash);
    assert comps[0] == name;
    assert Walk(fs, search, cur, comps) == Err(NotFound);
  }

  /** `cd ..` at the root fails and stays at the root. */
  lemma CdUpFromRoot(fs: FileSystem, search: Searcher)
    requires WellFormed(fs) && SearchOk(search)
    ensures Cd(fs, search, fs.root, "..") == Err(AlreadyAtRoot)
    ensures CurrentAfterCd(fs, search, fs.root, "..") == fs.root
  {
  }

  /** An absolute path leads to the same place from every directory. */
  lemma AbsoluteCdIgnoresStart(fs: FileSystem, search: Searcher, c1: NodeId, c2: NodeId, path: string)
    requires WellFormed(fs) && SearchOk(search) && c1 in fs.nodes && c2 in fs.nodes
    requires IsAbsolute(path)
    ensures Cd(fs, search, c1, path) == Cd(fs, search, c2, path)
  {
  }

  /** Doubled backslashes in a relative path mean the same as single ones. */
  lemma CdIgnoresRepeatedSeparators(fs: FileSystem, search: Searcher, cur: NodeId, a: string, b: string)
    requires WellFormed(fs) && SearchOk(search) && cur in fs.nodes
    requires !IsAbsolute(a + [Backslash] + b) && !IsAbsolute(a + [Backslash, Backslash] + b)
    ensures Cd(fs, search, cur, a + [Backslash, Backslash] + b) == Cd(fs, search, cur, a + [Backslash] + b)
  {
    TokensOfDoubleSeparator(a, Backslash, b);
  }

  // ---------------------------------------------------------- MoveToDir

  /** The descent loop of `MoveToDir`: every component is looked up as a
      name (`.` and `..` get no special meaning here), must be a directory
      and must have a loaded subdirectory. */
  function Descend(fs: FileSystem, search: Searcher, at: NodeId, dirs: seq<string>): (r: Result<NodeId>)
    requires WellFormed(fs) && SearchOk(search) && at in fs.nodes
    ensures r.Ok? ==> r.value in fs.nodes
    ensures |dirs| == 0 ==> r == Ok(at)
    ensures |dirs| > 0 ==>
              var k := search(fs.nodes[at].entries, dirs[0]);
              && (k == -1 ==> r == Err(NotFound))
              && (k != -1 && !fs.nodes[at].entries[k].isDir ==> r == Err(NotADirectory))
              && (k != -1 && fs.nodes[at].entries[k].isDir ==>
                    fs.nodes[at].entries[k].child.Some? &&
                    r == Descend(fs, search, fs.nodes[at].entries[k].child.value, dirs[1..]))
    decreases |dirs|
  {
    if |dirs| == 0 then Ok(at)
    else
      var entries := fs.nodes[at].entries;
      var k := search(entries, dirs[0]);
      if k == -1 then Err(NotFound)
      else if !entries[k].isDir then Err(NotADirectory)
      else match entries[k].child
        case None => Err(Inaccessible)
        case Some(next) => Descend(fs, search, next, dirs[1..])
  }

  /** Without `.` or `..` components, the `MoveToDir` descent and the `cd`
      walk reach the same directory or fail with the same error. */
  lemma {:induction false} DescendAgreesWithWalk(fs: FileSystem, search: Searcher, at: NodeId, dirs: seq<string>)
    requires WellFormed(fs) && SearchOk(search) && at in fs.nodes
    requires forall i :: 0 <= i < |dirs| ==> dirs[i] != "." && dirs[i] != ".."
    ensures Descend(fs, search, at, dirs) == Walk(fs, search, at, dirs)
    decreases |dirs|
  {
    if |dirs| > 0 {
      var k := search(fs.nodes[at].entries, dirs[0]);
      if k != -1 && fs.nodes[at].entries[k].isDir {
        DescendAgreesWithWalk(fs, search, fs.nodes[at].entries[k].child.value, dirs[1..]);
      }
    }
  }

  /** `MoveToDir`: split the path into components, refuse an empty list,
      start from the root when the first component is the drive (`C:`),
      otherwise from the current directory, and descend. The drive name
      comes from `Directory::getDrive`, which is not part of this model. */
  function MoveToDir(fs: FileSystem, search: Searcher, cur: NodeId, drive: string, path: string): (r: Result<NodeId>)
    requires WellFormed(fs) && SearchOk(search) && cur in fs.nodes
    ensures DirComponents(path) == [] <==> r == Err(PathEmpty)
    ensures r.Ok? ==> r.value in fs.nodes
    ensures var dirs := DirComponents(path);
            |dirs| > 0 && Upper(dirs[0]) == Upper(drive + ":") ==>
              r == Descend(fs, search, fs.root, dirs[1..])
    ensures var dirs := DirComponents(path);
            |dirs| > 0 && Upper(dirs[0]) != Upper(drive + ":") ==>
              r == Descend(fs, search, cur, dirs)
  {
    var dirs := DirComponents(path);
    if |dirs| == 0 then Err(PathEmpty)
    else if Upper(dirs[0]) == Upper(drive + ":") then
      RootOfIsRoot(fs, cur);
      var top := RootOf(fs, cur, |fs.nodes|).value;
      DescendNeverPathEmpty(fs, search, top, dirs[1..]);
      Descend(fs, search, top, dirs[1..])
    else
      DescendNeverPathEmpty(fs, search, cur, dirs);
      Descend(fs, search, cur, dirs)
  }

  lemma {:induction false} DescendNeverPathEmpty(fs: FileSystem, search: Searcher, at: NodeId, dirs: seq<string>)
    requires WellFormed(fs) && SearchOk(search) && at in fs.nodes
    ensures Descend(fs, search, at, dirs) != Err(PathEmpty)
    decreases |dirs|
  {
    if |dirs| > 0 {
      var entries := fs.nodes[at].entries;
      var k := search(entries, dirs[0]);
      if k != -1 && entries[k].isDir && entries[k].child.Some? {
        DescendNeverPathEmpty(fs, search, entries[k].child.value, dirs[1..]);
      }
    }
  }

  /** `MoveToDir` treats `/` exactly like `\`. */
  lemma MoveToDirSlashes(fs: FileSystem, search: Searcher, cur: NodeId, drive: string, path: string)
    requires WellFormed(fs) && SearchOk(search) && cur in fs.nodes
    ensures MoveToDir(fs, search, cur, drive, NormalizeSlashes(path)) == MoveToDir(fs, search, cur, drive, path)
  {
    assert NormalizeSlashes(NormalizeSlashes(path)) == NormalizeSlashes(path);
  }

  /** A relative path spelled as backslash-joined names, none of them
      the drive, `.` or `..`, leads where `cd` would walk with those names. */
  lemma MoveToDirOfJoin(fs: FileSystem, search: Searcher, cur: NodeId, drive: string, ps: seq<string>)
    requires WellFormed(fs) && SearchOk(search) && cur in fs.nodes
    requires |ps| >= 1 && ps[0] != [] && Upper(ps[0]) != Upper(drive + ":")
    requires forall k :: 0 <= k < |ps| ==>
               ps[k] != [] && ps[k] != "." && ps[k] != ".." && Slash !in ps[k] && Backslash !in ps[k]
    ensures MoveToDir(fs, search, cur, drive, JoinWith(ps, Backslash)) == Walk(fs, search, cur, ps)
  {
    DirComponentsOfJoin(ps);
    NonEmptyOfNonEmpty(ps);
    DescendAgreesWithWalk(fs, search, cur, ps);
  }

  /** Unlike `cd`, `MoveToDir` gives `..` no special meaning: it is looked
      up as a name, so below the root, where `cd ..` reaches the parent,
      `MoveToDir` fails with "not found" unless some entry matches `..`. */
  lemma MoveToDirDotDotIsAName(fs: FileSystem, search: Searcher, cur: NodeId, drive: string)
    requires WellFormed(fs) && SearchOk(search) && cur in fs.nodes
    requires search(fs.nodes[cur].entries, "..") == -1
    ensures MoveToDir(fs, search, cur, drive, "..") == Err(NotFound)
    ensures cur != fs.root ==> Cd(fs, search, cur, "..") == Ok(fs.nodes[cur].parent.value)
  {
    var n := NormalizeSlashes("..");
    assert n == "..";
    TokensOfWord("..", Backslash);
    var d := Upper(drive + ":");
    assert d[|d| - 1] == ':';
    assert Upper("..") == "..";
  }

  /** A parent path made of separators alone has no components, so it is
      refused as an empty path; only the empty parent path means the
      current directory: `echo \\F.TXT` (parent path `\`) is refused,
      while `echo \F.TXT` (empty parent path) writes to the current one. */
  lemma ResolveParentOnlySeparators(fs: FileSystem, search: Searcher, cur: NodeId, drive: string, parentPath: string)
    requires WellFormed(fs) && SearchOk(search) && cur in fs.nodes
    requires forall i :: 0 <= i < |parentPath| ==> parentPath[i] in Separators
    ensures parentPath == [] ==> ResolveParent(fs, search, cur, drive, parentPath) == Ok(cur)
    ensures parentPath != [] ==> ResolveParent(fs, search, cur, drive, parentPath) == Err(PathEmpty)
  {
    var n := NormalizeSlashes(parentPath);
    assert forall i :: 0 <= i < |n| ==> n[i] == Backslash;
    TokensOfSeparators(n, Backslash);
  }

  /** The directory a command's parent path names: the current directory
      for an empty parent path, otherwise what `MoveToDir` finds. */
  function ResolveParent(fs: FileSystem, search: Searcher, cur: NodeId, drive: string, parentPath: string): (r: Result<NodeId>)
    requires WellFormed(fs) && SearchOk(search) && cur in fs.nodes
    ensures r.Ok? ==> r.value in fs.nodes
    ensures parentPath == [] ==> r == Ok(cur)
    ensures parentPath != [] ==> r == MoveToDir(fs, search, cur, drive, parentPath)
  {
    if parentPath == [] then Ok(cur) else MoveToDir(fs, search, cur, drive, parentPath)
  }
}
